=== FILE: README.md ===
# ArtZilla.Wpf core rules, modelled in Dafny

ArtZilla.Wpf is a small WPF helper library (Core and Common assemblies). Most
of it is glue over WPF and Windows. This project models the precise rules
inside it and proves properties about them:

- **Window placement** (`window_placement.dfy`). `FsWindowPlacement` parses a
  serialized `WINDOWPLACEMENT` and rewrites it before applying it: the size
  field is forced, the flags are cleared, and a minimized window is restored
  as normal. The Core copy rejects text with the `IsBad` extension. The Common
  copy uses `String.IsNullOrEmpty`.
- **Form storage** (`form_storage.dfy`). `FormStorage` keeps a window's
  placement text under `HKCU\Software\<Company>\<Product>\<FormId>`, in the
  value `Placement`. The registry is an in-model map from key paths to named
  values. Keys that cannot be opened and values that cannot be written are
  explicit sets.
- **Page lifecycle** (`page_lifecycle.dfy`, `page_host.dfy`). A
  `PageViewModel` has a visibility flag that its hooks guard. A page host
  (`PageHostViewModel<TPages>` and its twin `PageWindowViewModel<TPages>`)
  swaps pages with a fixed interleaving of hooks. It swallows every exception,
  and it resolves page types by attribute or by assembly scan.
- **View models** (`view_models.dfy`). This covers `SetProperty`, which
  compares, assigns and notifies (three identical copies), and the
  `ViewModel<TModel>` and `DesignViewModel<TModel>` constructors.
- **Grid helper** (`grid_helper.dfy`, with `text.dfy` for `String.Split` and
  `Int32.ToString`). The `RowCount`, `ColumnCount`, `StarRows` and
  `StarColumns` attached properties build `Auto` definitions and star the
  listed ones. Both copies are modelled.
- **Localization** (`localization.dfy`, `localize_extension.dfy`).
  `LocalizationManager` covers key lookup with the `[key]` fallback, the
  culture list, the current-culture setter and `ChangeLocalization`.
  `LocalizeExtension.ProvideValue` covers argument validation and the choice
  of binding mode.

Conventions:

- A C# reference that may be null is an `Option`.
- An operation that may throw returns a `Result`, or an outcome datatype that
  names the exception.
- External code is a function-typed parameter. This covers the XML
  serializer, `IsBad`, `IsGood` and `Like`, the localization provider,
  `new CultureInfo` and reflection.
- `Int32` (in `wrappers.dfy`) is the C# `int` range.

Two identical copies of a class are modelled once. When they differ, the
difference is a parameter.

## Model

| member | source | states |
|---|---|---|
| WindowPlacement.Normalize | Project/ArtZilla.Wpf.Core/FormStorage/FsWindowPlacement.cs:38-40 | The placement handed to the OS always has the struct size and zero flags, and is never minimized. The geometry is kept. Minimized becomes normal and every other show state passes through. An already-normalised placement is unchanged. |
| WindowPlacement.NormalizeIdempotent | Project/ArtZilla.Wpf.Core/FormStorage/FsWindowPlacement.cs:38-40 | Normalising twice is normalising once. The normalised placements are exactly the fixed points. |
| WindowPlacement.SetPlacement | Project/ArtZilla.Wpf.Core/FormStorage/FsWindowPlacement.cs:28-45 | Rejected text applies nothing. A null string that passes the test escapes as an exception that the catch clause does not cover. A parse failure is swallowed. Otherwise exactly `Normalize` of the parse is applied: size forced, flags cleared, minimized made normal, every other show state and the geometry kept. |
| WindowPlacement.SetPlacementCommon | Project/ArtZilla.Wpf.Common/FormStorage/IFormStorage.cs:75-91 | Null or empty text does nothing and no exception ever escapes. A parse failure is swallowed. A placement is applied exactly when the text is non-empty and parses, and it is then `Normalize` of the parse. |
| WindowPlacement.NothingEscapesWhenNullIsBad | Project/ArtZilla.Wpf.Core/FormStorage/FsWindowPlacement.cs:29-34 | If the rejection test rejects null, the Core copy never lets an exception escape. |
| WindowPlacement.GetPlacement | Project/ArtZilla.Wpf.Core/FormStorage/FsWindowPlacement.cs:47-56 | The text produced for the window's current placement parses back to that placement whenever the serializer round-trips it. |
| WindowPlacement.GetThenSetAppliesNormalized | Project/ArtZilla.Wpf.Core/FormStorage/FsWindowPlacement.cs:47-56 | Text from `GetPlacement` for `p`, fed back to `SetPlacement`, applies `Normalize(p)` when the serializer round-trips `p`. This holds for both copies. |
| WindowPlacement.ShowStateOnRestore | Project/ArtZilla.Wpf.Core/FormStorage/FsWindowPlacement.cs:17-18 | Maximized stays maximized and minimized comes back normal. The result is normal exactly when the input was normal or minimized. |
| FormStorage.KeyPath | Project/ArtZilla.Wpf.Common/FormStorage/FormStorage.cs:53-61 | The address has four levels and starts at `Software`. |
| FormStorage.OpenPath | Project/ArtZilla.Wpf.Common/FormStorage/FormStorage.cs:53-56 | The read-only chain yields the key exactly when every level from `depth` on opens. A missing level, or one that cannot be opened, gives null. |
| FormStorage.CreatePath | Project/ArtZilla.Wpf.Common/FormStorage/FormStorage.cs:59-61 | The create chain never alters existing keys and only adds empty keys along the path. It yields the key exactly when no level is denied. |
| FormStorage.CreatePathKeepsLevels | Project/ArtZilla.Wpf.Common/FormStorage/FormStorage.cs:59-67 | Every level up to the first denied one is in the registry afterwards, even when the chain then throws and `GetKey` returns null. |
| FormStorage.GetKeyRead | Project/ArtZilla.Wpf.Common/FormStorage/FormStorage.cs:48-68 | `GetKey(true)` is non-null exactly when all four levels open. |
| FormStorage.GetKeyWrite | Project/ArtZilla.Wpf.Common/FormStorage/FormStorage.cs:48-68 | `GetKey(false)` needs `Software` to exist, because it is never created. It then creates the missing company, product and form levels and keeps the registry prefix-closed. It is null exactly when `Software` is missing or a level cannot be opened or created. |
| FormStorage.Save | Project/ArtZilla.Wpf.Common/FormStorage/FormStorage.cs:20-32 | `Save` is true exactly when the key can be opened for writing and the value written. It then stores the placement text under `Placement` and leaves the key's other values alone. When it is false, no existing key or value changes. Keys it creates are empty, except the form key after a successful save. No key outside the form's path is touched. |
| FormStorage.SaveFailureKeepsCreatedLevels | Project/ArtZilla.Wpf.Common/FormStorage/FormStorage.cs:20-32 | When the form level cannot be created, `Save` returns false, yet the company and product levels it created stay in the registry. |
| FormStorage.Restore | Project/ArtZilla.Wpf.Common/FormStorage/FormStorage.cs:34-46 | There is nothing to restore exactly when some level is missing or cannot be opened. Otherwise the stored text is passed on, or null when there is no `Placement` value. |
| FormStorage.RestoreWindow | Project/ArtZilla.Wpf.Common/FormStorage/FormStorage.cs:75-79 | `SetPlacement` is called exactly when the key was found, and it is given the stored `Placement` text (null when there is none). `Restore` is true exactly when it was called and did not throw. |
| FormStorage.RestoreTrueIffKeyExists | Project/ArtZilla.Wpf.Common/FormStorage/IFormStorage.cs:145-157 | With the Common `SetPlacement`, `Restore` is true exactly when the key path exists, even with no `Placement` value. |
| FormStorage.CreatePathIdempotent | Project/ArtZilla.Wpf.Common/FormStorage/FormStorage.cs:59-61 | Creating the levels again changes nothing. |
| FormStorage.GetKeyWriteIdempotent | Project/ArtZilla.Wpf.Common/FormStorage/FormStorage.cs:58-61 | Opening for writing a second time creates nothing more and yields the same key. |
| FormStorage.SaveTwiceKeepsLatest | Project/ArtZilla.Wpf.Common/FormStorage/FormStorage.cs:70-73 | A second save succeeds and creates no key. The value is the latest text. |
| FormStorage.SaveThenRestore | Project/ArtZilla.Wpf.Common/FormStorage/FormStorage.cs:70-79 | `Restore` after a successful `Save` passes exactly the saved text to `SetPlacement`. |
| FormStorage.SaveThenRestoreWindow | Project/ArtZilla.Wpf.Common/FormStorage/FormStorage.cs:20-46 | End to end, save then restore applies the normalised saved placement and returns true, given a round-tripping serializer. |
| FormStorage.SaveDoesNotDisturbOtherForms | Project/ArtZilla.Wpf.Common/FormStorage/FormStorage.cs:52-61 | Saving under one form id leaves what `Restore` finds under any other form id unchanged. |
| FormStorage.PrefixOfExistingKey | Project/ArtZilla.Wpf.Common/FormStorage/FormStorage.cs:53-56 | In a registry where every key has its parent, every level above an existing key exists. |
| FormStorage.EndToEndExamples | Project/ArtZilla.Wpf.Common/FormStorage/FormStorage.cs:20-46 | A window saved at (10, 20, 800, 600), normal or minimized, is restored at those bounds in the normal state. |
| FormStorage.DefaultAddress | Project/ArtZilla.Wpf.Common/FormStorage/FormStorage.cs:7-11 | The default address is `Software\Foo\Bar\MainForm` with value `Placement`. |
| PageLifecycle.NewPage | Project/ArtZilla.Wpf.Core/ViewModels/PageViewModel.cs:8-11 | A new page is hidden and detached. |
| PageLifecycle.BeforeShow | Project/ArtZilla.Wpf.Core/ViewModels/PageViewModel.cs:16-20 | `BeforeShow` throws "Page not hidden" exactly on a visible page and otherwise changes nothing. |
| PageLifecycle.AfterShow | Project/ArtZilla.Wpf.Core/ViewModels/PageViewModel.cs:22-28 | `AfterShow` makes the page visible and changes nothing else. |
| PageLifecycle.BeforeHide | Project/ArtZilla.Wpf.Core/ViewModels/PageViewModel.cs:30-34 | `BeforeHide` throws "Page not visible" exactly on a hidden page and otherwise changes nothing. |
| PageLifecycle.AfterHide | Project/ArtZilla.Wpf.Core/ViewModels/PageViewModel.cs:36-42 | `AfterHide` makes the page hidden and changes nothing else. |
| PageLifecycle.ShowThenHide | Project/ArtZilla.Wpf.Core/ViewModels/ViewModel.cs:199-225 | From hidden, show makes the page visible and a second show fails. Hiding then restores the original page. |
| PageLifecycle.GuardsAreComplementary | Project/ArtZilla.Wpf.Core/ViewModels/PageViewModel.cs:16-34 | Exactly one guard passes on any page, so show and hide alternate. |
| PageHost.NewHost | Project/ArtZilla.Wpf.Core/ViewModels/PageHostViewModel.cs:134-139 | A new host has no page, view, view-model, url or `Page`, and is therefore consistent. |
| PageHost.ChangePageTo | Project/ArtZilla.Wpf.Core/ViewModels/PageHostViewModel.cs:93-132 | The hooks run as a prefix of old.BeforeHide, new.BeforeShow, old.AfterHide, new.AfterShow. A hidden old page refuses to hide, and nothing changes. Otherwise a visible new page refuses to show and is left attached, with the host unchanged. Otherwise the change completes: Page, View and ViewModel are announced, the fields are swapped, and the old page is hidden and detached. |
| PageHost.ChangeKeepsOnlyCurrentVisible | Project/ArtZilla.Wpf.Core/ViewModels/PageHostViewModel.cs:93-122 | From a consistent host, changing to a hidden page completes. Afterwards the new page is the only visible one, attached to the host, and the old one is hidden. |
| PageHost.ChangeDebugExpectations | Project/ArtZilla.Wpf.Core/ViewModels/PageViewModel.cs:22-42 | In a completed change, the old page's `AfterHide` debug assertion always holds. The new page's `AfterShow` assertion holds exactly when the page is in design mode or the host has dialogs. |
| PageHost.ChangePage | Project/ArtZilla.Wpf.Core/ViewModels/PageHostViewModel.cs:57-132 | A resolver exception escapes and a null view-model or view throws "Can't find". A non-null pair always runs the change. It completes exactly when the current page is visible (or absent) and the new one hidden, and then the new page is shown, attached and current with the new view. Otherwise the host is unchanged. `Page` is never updated, because the old `_page` is passed on. |
| PageHost.ChangePageUntyped | Project/ArtZilla.Wpf.Core/ViewModels/PageHostViewModel.cs:47-54 | The `IPageViewModel` and `Type` overloads always throw `NotImplementedException`, whatever the argument. |
| PageHost.HostCreateByPage | Project/ArtZilla.Wpf.Core/ViewModels/PageHostViewModel.cs:65-91 | It succeeds exactly when both types are found (attribute first, then scan) and implement the page interfaces. It then yields a fresh hidden page. With no view-model type at all it throws. |
| PageHost.Navigate | Project/ArtZilla.Wpf.Core/ViewModels/PageHostViewModel.cs:57-63 | A sequence of `ChangePage` calls never replaces the host, its dialogs or `Page`. (In the definition a call that throws leaves the host as it was and the next call runs on it; the contract promises only the frame.) |
| PageHost.NavigationInvariant | Project/ArtZilla.Wpf.Core/ViewModels/PageHostViewModel.cs:57-122 | Any sequence of `ChangePage` calls keeps the host consistent, whatever pages the resolver returns (an overriding `CreateByPage` may return visible or reused ones). The current page, when there is one, is visible and attached to the host with its dialogs. |
| PageHost.PageNeverUpdated | Project/ArtZilla.Wpf.Core/ViewModels/PageHostViewModel.cs:62 | From a new host, `Page` stays null whatever pages are visited. |
| PageHost.WindowChangePage | Project/ArtZilla.Wpf.Core/ViewModels/ViewModel.cs:109-179 | In the window copy, a null view-model or view only logs and changes nothing. The resolver's own exception escapes unchanged. A non-null pair always runs the change, with the same completion rule and outcome as the host's. `Page` is never updated. |
| PageHost.WindowCreateByPage | Project/ArtZilla.Wpf.Core/ViewModels/ViewModel.cs:118-138 | As written it never succeeds. Missing attributes throw and there is no scan. A type that implements its interface is rejected by the inverted check. A view-model type that does not implement `IPageViewModel` passes the check and then fails the cast of the activated instance. |
| PageHost.WindowCreateByPageRejectsValidPages | Project/ArtZilla.Wpf.Core/ViewModels/ViewModel.cs:109-135 | The window copy throws for every page, so it can never change page. With correctly attributed page types it is the inverted check that throws. |
| PageHost.WindowCreateByPageIntended | Project/ArtZilla.Wpf.Core/ViewModels/ViewModel.cs:118-138 | The corrected check succeeds exactly when both attributes are present and both types implement the page interfaces. |
| PageHost.WindowCreateByPageIntendedAgrees | Project/ArtZilla.Wpf.Core/ViewModels/PageHostViewModel.cs:82-86 | When both attributes are present, the corrected window check agrees with the host's. With valid types the window host then completes a change. |
| PageHost.FindFirst | Project/ArtZilla.Wpf.Core/ViewModels/PageHostViewModel.cs:71-73 | `Array.Find` gives the first element that passes the test, and is null exactly when none passes. |
| PageHost.FindFirstAt | Project/ArtZilla.Wpf.Core/ViewModels/PageHostViewModel.cs:71-73 | When element `i` passes the test and no earlier one does, `Array.Find` returns element `i`. |
| PageHost.EndsWith | Project/ArtZilla.Wpf.Core/ViewModels/PageHostViewModel.cs:72 | A string ends with a suffix exactly when it is some text followed by that suffix. |
| PageHost.ScanByName | Project/ArtZilla.Wpf.Core/ViewModels/PageHostViewModel.cs:70-79 | The scan as written returns the first type whose simple `Name` ends with `.<page><suffix>`, and null exactly when no type does. |
| PageHost.ScanByNameNeverMatches | Project/ArtZilla.Wpf.Core/ViewModels/PageHostViewModel.cs:70-80 | The scan as written tests the simple `Name` for a dotted suffix, so it finds nothing. A page without attributes always fails to resolve. |
| PageHost.ScanByFullName | Project/ArtZilla.Wpf.Core/ViewModels/PageHostViewModel.cs:70-79 | The corrected scan returns the first type whose `FullName` ends with `.<page><suffix>`, and null exactly when no type does. |
| PageHost.NoDotNoDottedSuffix | Project/ArtZilla.Wpf.Core/ViewModels/PageHostViewModel.cs:72 | A dot-free name never ends with a suffix that starts with a dot. |
| PageHost.ScanByFullNameFinds | Project/ArtZilla.Wpf.Core/ViewModels/PageHostViewModel.cs:70-86 | In an assembly holding other types too, such as the `TPages` enumeration, the corrected scan returns the first `<ns>.<page>PageVM` and the first `<ns>.<page>Page`. When those two implement their page interfaces, resolution succeeds without attributes. |
| ViewModels.SetProperty | Project/ArtZilla.Wpf.Core/ViewModels/ViewModel.cs:41-46 | Storage always ends equal to the value. The result is true exactly when the value differed. Exactly one notification, carrying the property name, is raised when true, and none otherwise. |
| ViewModels.SetPropertyEqualIsNoop | Project/ArtZilla.Wpf.Common/ViewModels/ViewModel.cs:40-41 | An equal value returns false, keeps storage and notifies nothing. |
| ViewModels.SetPropertyUnequalAssigns | Project/ArtZilla.Wpf.Common/Intf/Class1.cs:64-66 | An unequal value is stored and announced once, and the call returns true. |
| ViewModels.SetPropertyIdempotent | Project/ArtZilla.Wpf.Common/ViewModels/ViewModel.cs:40-45 | Repeating the call with the same value returns false and raises nothing. |
| ViewModels.NewViewModel | Project/ArtZilla.Wpf.Common/Intf/Class1.cs:73-77 | The constructors set `Model`. The two-argument form also sets `Dialogs`. |
| ViewModels.NewDesignViewModel | Project/ArtZilla.Wpf.Common/Intf/Class1.cs:114-118 | The parameterless constructor throws outside design mode. In design mode `Model` is a fresh instance and there are no dialogs. |
| Text.Split | Project/ArtZilla.Wpf.Core/Helpers/GridHelper.cs:125 | `Split` returns at least one piece and no piece contains the separator. |
| Text.JoinSplit | Project/ArtZilla.Wpf.Core/Helpers/GridHelper.cs:125 | Joining the pieces of a split gives the text back. |
| Text.Join | Project/ArtZilla.Wpf.Core/Helpers/GridHelper.cs:125 | Joining starts with the first part, followed by the separator when there are more parts; a single part is its own join. |
| Text.SplitJoin | Project/ArtZilla.Wpf.Common/Helpers/GridHelper.cs:161 | Splitting a join of separator-free parts gives the parts back, so tokens are kept exactly and not trimmed. |
| Text.SplitWithoutSeparator | Project/ArtZilla.Wpf.Common/Helpers/GridHelper.cs:152 | A separator-free prefix stays inside the first piece. |
| Text.NatToString | Project/ArtZilla.Wpf.Core/Helpers/GridHelper.cs:129 | `i.ToString()` is all digits, with no sign and no leading zero. |
| Text.ParseNatToString | Project/ArtZilla.Wpf.Core/Helpers/GridHelper.cs:129 | Parsing the decimal text of `i` gives `i` back. |
| Text.ParseNat | Project/ArtZilla.Wpf.Core/Helpers/GridHelper.cs:129 | Decimal parsing succeeds exactly on non-empty all-digit text. |
| Text.NatToStringInjective | Project/ArtZilla.Wpf.Common/Helpers/GridHelper.cs:165 | Distinct indices print differently, so a token names at most one index. |
| GridHelper.MarkFrom | Project/ArtZilla.Wpf.Core/Helpers/GridHelper.cs:128-131 | The marking loop from index `i` keeps earlier definitions. From `i` on it stars exactly the matching indices and keeps the rest. |
| GridHelper.SetStars | Project/ArtZilla.Wpf.Core/Helpers/GridHelper.cs:124-131 | The number of definitions is unchanged. Index `j` becomes `Star(1)` exactly when the text is like `All` or a token equals `j.ToString()`. All other definitions are kept. |
| GridHelper.SetStarsMonotoneIdempotent | Project/ArtZilla.Wpf.Common/Helpers/GridHelper.cs:151-167 | Marking only turns definitions into `Star(1)`, and marking twice is marking once. |
| GridHelper.SetStarsOn | Project/ArtZilla.Wpf.Core/Helpers/GridHelper.cs:114-132 | The axis's own star text marks the axis's definitions. The other axis and both star texts are untouched. |
| GridHelper.CountChanged | Project/ArtZilla.Wpf.Core/Helpers/GridHelper.cs:24-33 | A non-grid target or a negative count is a no-op. Otherwise there are exactly `n` definitions, each `Star(1)` if starred and `Auto` otherwise, and the other axis and both star texts are untouched. |
| GridHelper.DefaultCountIsNoop | Project/ArtZilla.Wpf.Core/Helpers/GridHelper.cs:14-17 | The default count -1 never touches the grid. |
| GridHelper.StarsChanged | Project/ArtZilla.Wpf.Core/Helpers/GridHelper.cs:84-87 | The star text is stored. Definitions change only on a grid when the text passes the copy's test, and then exactly as marking dictates. The other axis is untouched. |
| GridHelper.CommonIgnoresEmpty | Project/ArtZilla.Wpf.Common/Helpers/GridHelper.cs:109-115 | With the Common test, an empty star text leaves the definitions unchanged. |
| GridHelper.TokensAreNotTrimmed | Project/ArtZilla.Wpf.Core/Helpers/GridHelper.cs:125-129 | `"0, 1"` stars index 0 but not index 1. |
| GridHelper.StarredIndexIsNamed | Project/ArtZilla.Wpf.Core/Helpers/GridHelper.cs:129 | When the text is not `All`, a starred index is named by a token that parses back to exactly that index. Other tokens star nothing. |
| GridHelper.ColumnsMirrorRows | Project/ArtZilla.Wpf.Core/Helpers/GridHelper.cs:54-63 | Column handling is row handling on the transposed grid, for both callbacks. |
| Localization.Fallback | Project/ArtZilla.Wpf.Core/Localization/LocalizationManager.cs:23 | The fallback is bracketed. Between the brackets is the key, or `NULL` for a null or empty key. |
| Localization.FallbackInjective | Project/ArtZilla.Wpf.Core/Localization/LocalizationManager.cs:23 | Distinct non-empty keys give distinct fallbacks. |
| Localization.FallbackNullCollision | Project/ArtZilla.Wpf.Core/Localization/LocalizationManager.cs:23 | A null key, the empty key and the key `"NULL"` all give `[NULL]`. |
| Localization.GetString | Project/ArtZilla.Wpf.Core/Localization/LocalizationManager.cs:20-24 | With a provider, the result is the provider's answer, unwrapped. Without one it is `[key]`, or `[NULL]` for a null or empty key. |
| Localization.GetObject | Project/ArtZilla.Wpf.Core/Localization/LocalizationManager.cs:29-33 | With a provider, the result is the provider's object. Without one it is the bracketed fallback text as a string object. |
| Localization.GetObjectMatchesGetString | Project/ArtZilla.Wpf.Core/Localization/LocalizationManager.cs:20-33 | Without a provider, both lookups give the same text. |
| Localization.SetCurrentCulture | Project/ArtZilla.Wpf.Core/Localization/LocalizationManager.cs:46-58 | An equal culture changes nothing and raises nothing. A different one becomes current, and also the new-thread default outside .NET 4.0. `CultureChanged` is raised exactly once. |
| Localization.SetCurrentCultureIdempotent | Project/ArtZilla.Wpf.Core/Localization/LocalizationManager.cs:49-56 | Setting the same culture twice raises at most one event. |
| Localization.Cultures | Project/ArtZilla.Wpf.Core/Localization/LocalizationManager.cs:41-42 | The result is the provider's cultures. With no provider, or a null collection, it is just the current culture. |
| Localization.FindByThreeLetter | Project/ArtZilla.Wpf.Core/Localization/LocalizationManager.cs:69 | The result is the first culture with that three-letter name, and is null exactly when none has it. |
| Localization.ChangeLocalization | Project/ArtZilla.Wpf.Core/Localization/LocalizationManager.cs:67-73 | A listed culture with that three-letter name becomes current. Otherwise the constructed culture does, or construction fails. At most one event is raised. Landing on the current culture changes nothing. |
| Localization.ChangeLocalizationIsSetter | Project/ArtZilla.Wpf.Core/Localization/LocalizationManager.cs:67-73 | The early return only repeats the setter's own test, so the result is the setter applied to the first match. |
| Localization.ChangeToCurrentLanguageIsNoop | Project/ArtZilla.Wpf.Core/Localization/LocalizationManager.cs:41-73 | Without a provider, asking for the current language changes nothing and never constructs a culture. |
| LocalizeExtension.NewExt | Project/ArtZilla.Wpf.Core/Localization/LocalizeExtension.cs:28-30 | The key constructor sets only `Key`. |
| LocalizeExtension.GetArgumentBindings | Project/ArtZilla.Wpf.Core/Localization/LocalizeExtension.cs:23-26 | The getter never yields null. A missing collection is created empty and kept. |
| LocalizeExtension.GetArgumentBindingsStable | Project/ArtZilla.Wpf.Core/Localization/LocalizeExtension.cs:23-26 | A second read returns the same collection and changes nothing. |
| LocalizeExtension.ArgumentBindings | Project/ArtZilla.Wpf.Core/Localization/LocalizeExtension.cs:23-26 | The collection `ProvideValue` reads is what the getter returns: the stored one, or empty when none was set. |
| LocalizeExtension.Validate | Project/ArtZilla.Wpf.Core/Localization/LocalizeExtension.cs:34-39 | It reports both-keys exactly when both are set and no-key exactly when neither is. It reports the arguments conflict exactly when one key is set, `Arguments` is non-null and there are argument bindings. |
| LocalizeExtension.ChildBindings | Project/ArtZilla.Wpf.Core/Localization/LocalizeExtension.cs:50-61 | The child bindings are the listener, then the key binding or a constant source of `Key`, then every argument binding in order. |
| LocalizeExtension.ProvideValue | Project/ArtZilla.Wpf.Core/Localization/LocalizeExtension.cs:33-71 | It fails exactly when validation does. A SharedDp target gets the extension itself. A key binding or argument bindings give a multibinding with `Arguments` as converter parameter. An empty key gives null. Otherwise it is a key listener for the non-empty key. |
| LocalizeExtension.ValidationIgnoresTarget | Project/ArtZilla.Wpf.Core/Localization/LocalizeExtension.cs:34-43 | Validation comes before the target is examined. |
| LocalizeExtension.FirstCheckWins | Project/ArtZilla.Wpf.Core/Localization/LocalizeExtension.cs:34-39 | Setting both keys is reported even when the arguments conflict too. |
| LocalizeExtension.PlainKey | Project/ArtZilla.Wpf.Core/Localization/LocalizeExtension.cs:70-74 | `{Localize key}` gives a key listener, and gives null for the empty key. |

## Left out

- `user32.dll` (`GetWindowPlacement`, `SetWindowPlacement`), `WindowInteropHelper` and `Marshal.SizeOf` are foreign calls. The current placement is a parameter and the applied one is an outcome. The size is the constant 44, for three `Int32`s, two points and a rectangle in sequential layout.
- The XML serializer and UTF-8 are a library outside the model. They are an uninterpreted encode/decode pair. Round-trip facts take "the serializer round-trips `p`" as a hypothesis.
- The registry is modelled without case-insensitive key names and without handle lifetime (`Close`, and the handle leaked when `Save` throws after `GetKey`). It is also modelled without `Registry.CurrentUser` ever being null.
- Reflection and `Activator` are abstracted. Attribute lookup and the assembly scan are inputs. For types that implement the page interfaces, activation yields a fresh hidden page and a new view; its own exceptions, such as a missing constructor, are not modelled. The failing cast of a non-page type is modelled only in the window copy, where its check lets such types through.
- `lock (_navigation)` is concurrency. Changes are sequential.
- FormStorage.KeyPath: company, product and form id are each one registry level. The registry API reads a `\` inside a name as a path separator and an empty name as the key itself, so names that are empty or contain `\` can alias each other's keys (`Bar` + `X\Y` and `Bar\X` + `Y`). Key names are also compared without regard to case, so form ids that differ only in case (`MainForm` and `mainform`) are one key. `SaveDoesNotDisturbOtherForms` is promised only for names without these.
- FormStorage.GetKeyWrite: one `denied` set stands for keys that cannot be opened at all. A key that can be opened for reading but not for writing is not expressible, so `Save` failing while `Restore` succeeds on the same key is not modelled.
- PageHost.EndsWith: the comparison is character by character. The source's one-argument `String.EndsWith` compares with the current culture, which can also match culturally equivalent or ignorable characters; type names are taken to contain none.
- `IsBad`, `IsGood` and `Like` are external extensions. They are uninterpreted parameters.
- `GridLength` carries doubles in WPF. Only `Auto` and `Star(1)` are ever produced, so integers suffice.
- A null `StarRows`/`StarColumns` value is not modelled; it throws `NullReferenceException` in the callback. A null company, product or form name is not modelled either; `OpenSubKey`/`CreateSubKey` throw `ArgumentNullException`, `GetKey`'s catch-all turns that into null, and `Save` and `Restore` then return false.
- PageHost.ChangePageTo: the new page is treated as a different object from the current one. The default `CreateByPage` always activates a fresh instance. An override that returns the current page object itself would have its hooks run on one shared object, which is not modelled. A visible or reused page of another object is covered.
- `Url` is not modelled. It is `_page.ToString()` on a nullable `TPages`, which is the empty string for the null `_page`; since `_page` never changes, `Url` is always empty. The `url` argument is null at every call site and is only stored.
- The MvvmLight `RaisePropertyChanged` name check is not modelled. A notification is recorded by its name only.
- `UpdateModel` and `UpdateProperty` are not modelled. They compare through expression-tree reflection and `object` reference equality.
- The `PageViewModel<TModel>` constructors are not modelled; they only set `Model` and `Dialogs`.
- The `Debug.Print` lines are omitted. The `Debug.Assert`s are the predicates `ShowExpectation` and `HideExpectation`.
- Culture equality is structural here, while `CultureInfo.Equals` compares the name and the compare info. A null culture and `CultureNotFoundException` details are not modelled; construction failure is a `Result`.
- The `Thread.CurrentThread` culture is a single value, not per thread.
- The DP, Setter and Binding target branches of `ProvideValue`, after the key listener is built, are not modelled. They only decide how the listener is handed to WPF. The listener classes, `CultureChangedEventManager` and `string.Format` are WPF plumbing.
- LocalizeExtension.ProvideValue: the lazy creation of `ArgumentBindings` during `ProvideValue` is not threaded through the result. It is modelled by `GetArgumentBindings` on its own.
- The dependency-property registrations, `Dialogs.cs` (message boxes) and `BindingErrorListener` are UI plumbing.

## Findings

| source | as written | input that shows it | evidently intended | confidence | as-written member | corrected member |
|---|---|---|---|---|---|---|
| Project/ArtZilla.Wpf.Core/ViewModels/ViewModel.cs:129-135 | `PageWindowViewModel<TPages>.CreateByPage` throws when the type DOES implement `IPageViewModel` or `IPageView`; a view-model type that passes this check does not implement `IPageViewModel`, so the cast at line 135 throws. The window copy can never change page. | A page whose `[ViewModel]` type implements `IPageViewModel` and whose `[View]` type implements `IPageView`. | Throw when the type does not implement the interface, as the message says and as `PageHostViewModel.cs:82-86` does. | high; not executed | PageHost.WindowCreateByPageRejectsValidPages | PageHost.WindowCreateByPageIntendedAgrees |
| Project/ArtZilla.Wpf.Core/ViewModels/PageHostViewModel.cs:71-79 | The assembly scan tests `t.Name.EndsWith("." + page + "PageVM")`, but a simple type name contains no dot. | Page `Home` and a type `App.Pages.HomePageVM`, whose `Name` is `HomePageVM`. | Test the namespace-qualified `FullName`. | high; not executed | PageHost.ScanByNameNeverMatches | PageHost.ScanByFullNameFinds |

=== FILE: form_storage.dfy ===
/** `FormStorage`: persists a window's placement text under
    `HKCU\Software\<Company>\<Product>\<FormId>`, value `Placement`.

    The registry is an in-model map from key paths (the sequence of sub-key
    names below `HKEY_CURRENT_USER`) to the named string values of that key.
    Keys whose opening or creation throws (no permission) are the set
    `denied`; keys whose values cannot be written are `protectedValues`. Both
    copies of the class (`FormStorage.cs` and the one in `IFormStorage.cs`)
    have the same code and are modelled once. */
module FormStorage {
  import opened Wrappers
  import opened WindowPlacement

  /** Sub-key names below `HKEY_CURRENT_USER`; `[]` is the hive root itself. */
  type Path = seq<string>

  datatype Registry = Registry(
    keys: map<Path, map<string, string>>,
    denied: set<Path>,
    protectedValues: set<Path>)

  /** `FormStorage.PlacementKey`: the name of the one value written. */
  const PlacementValue: string := "Placement"
  const SoftwareKey: string := "Software"

  /** The three configurable levels of the address. */
  datatype Names = Names(company: string, product: string, formId: string)

  /** The parameterless constructor's defaults. */
  const DefaultNames: Names := Names("Foo", "Bar", "MainForm")

  function KeyPath(n: Names): (p: Path)
    ensures |p| == 4 && p[0] == SoftwareKey
  {
    [SoftwareKey, n.company, n.product, n.formId]
  }

  /** `OpenSubKey` on this path yields a key (rather than null or a throw). */
  predicate Opens(reg: Registry, p: Path) {
    p in reg.keys && p !in reg.denied
  }

  /** Every key's parent key exists, as in any registry hive. */
  ghost predicate PrefixClosed(reg: Registry) {
    forall q :: q in reg.keys && |q| > 1 ==> q[..|q| - 1] in reg.keys
  }

  /** The read-only chain `key = key?.OpenSubKey(full[depth])`, level after
      level: a missing level is null and short-circuits the rest; a level
      that throws is caught by `GetKey`, which returns null as well. */
  function OpenPath(reg: Registry, full: Path, depth: nat): (r: Option<Path>)
    requires depth <= |full|
    ensures r.Some? <==> forall k :: depth < k <= |full| ==> Opens(reg, full[..k])
    ensures r.Some? ==> r.value == full
    decreases |full| - depth
  {
    if depth == |full| then
      assert full[..depth] == full;
      Some(full)
    else if Opens(reg, full[..depth + 1]) then
      OpenPath(reg, full, depth + 1)
    else
      None
  }

  /** The registry after a `GetKey` call, and the key it returned (null as
      `None`). */
  datatype KeyOpen = KeyOpen(reg: Registry, key: Option<Path>)

  /** The writable chain `key = key?.CreateSubKey(full[depth])`: creating an
      existing key opens it; a level that throws ends the chain, and the
      levels created before it stay created. */
  function CreatePath(reg: Registry, full: Path, depth: nat): (r: KeyOpen)
    requires depth <= |full|
    requires full[..depth] in reg.keys
    ensures CreateSpec(reg, full, depth, r)
    decreases |full| - depth
  {
    if depth == |full| then
      assert full[..depth] == full;
      KeyOpen(reg, Some(full))
    else
      var p := full[..depth + 1];
      if p in reg.denied then
        KeyOpen(reg, None)
      else
        var reg1 := reg.(keys := if p in reg.keys then reg.keys else reg.keys[p := map[]]);
        assert p[..|p| - 1] == full[..depth];
        var r1 := CreatePath(reg1, full, depth + 1);
        CreateSpecLift(reg, full, depth, r1);
        r1
  }

  /** What `CreatePath` promises: permissions untouched; existing keys and
      their values kept; every new key an empty level of `full` below
      `depth` whose parent exists; the key yielded exactly when no level
      below `depth` is denied, and then every level of it present. */
  ghost predicate CreateSpec(reg: Registry, full: Path, depth: nat, r: KeyOpen)
    requires depth <= |full|
  {
    && r.reg.denied == reg.denied && r.reg.protectedValues == reg.protectedValues
    && (forall q :: q in reg.keys ==> q in r.reg.keys && r.reg.keys[q] == reg.keys[q])
    && (forall q :: q in r.reg.keys && q !in reg.keys ==>
          depth < |q| <= |full| && q == full[..|q|] && r.reg.keys[q] == map[] && q[..|q| - 1] in r.reg.keys)
    && (r.key.Some? <==> forall k :: depth < k <= |full| ==> full[..k] !in reg.denied)
    && (r.key.Some? ==> r.key.value == full && forall k :: depth <= k <= |full| ==> full[..k] in r.reg.keys)
  }

  /** One step of the create chain: what the rest of the chain promises from
      the registry with level `depth + 1` present is what the whole chain
      promises from `reg`. */
  lemma CreateSpecLift(reg: Registry, full: Path, depth: nat, r: KeyOpen)
    requires depth < |full| && full[..depth] in reg.keys && full[..depth + 1] !in reg.denied
    requires var p := full[..depth + 1];
      CreateSpec(reg.(keys := if p in reg.keys then reg.keys else reg.keys[p := map[]]), full, depth + 1, r)
    ensures CreateSpec(reg, full, depth, r)
  {
    var p := full[..depth + 1];
    var reg1 := reg.(keys := if p in reg.keys then reg.keys else reg.keys[p := map[]]);
    assert p[..|p| - 1] == full[..depth];
    assert forall q :: q in reg.keys ==> q in reg1.keys && reg1.keys[q] == reg.keys[q];
    forall q | q in r.reg.keys && q !in reg.keys
      ensures depth < |q| <= |full| && q == full[..|q|] && r.reg.keys[q] == map[] && q[..|q| - 1] in r.reg.keys
    {
      if q == p {
        assert q in reg1.keys && reg1.keys[q] == map[];
      }
    }
    assert (forall k :: depth < k <= |full| ==> full[..k] !in reg.denied)
       <==> (forall k :: depth + 1 < k <= |full| ==> full[..k] !in reg.denied);
  }

  /** No level of `full` from `depth + 1` to `k` is denied. */
  predicate NoneDenied(reg: Registry, full: Path, depth: nat, k: nat)
    requires k <= |full|
  {
    forall j :: depth < j <= k ==> full[..j] !in reg.denied
  }

  /** Starting from `before` at `depth`, `after` holds every level up to the
      first denied one. */
  predicate CreatedUpToDenied(before: Registry, after: Registry, full: Path, depth: nat) {
    forall k :: depth < k <= |full| && NoneDenied(before, full, depth, k) ==> full[..k] in after.keys
  }

  /** The create chain leaves behind every level up to the first denied
      one, even when it then fails. */
  lemma {:induction false} CreatePathKeepsLevels(reg: Registry, full: Path, depth: nat)
    requires depth <= |full| && full[..depth] in reg.keys
    ensures CreatedUpToDenied(reg, CreatePath(reg, full, depth).reg, full, depth)
    decreases |full| - depth
  {
    if depth < |full| {
      var p := full[..depth + 1];
      if p in reg.denied {
        DeniedStopsChain(reg, CreatePath(reg, full, depth).reg, full, depth);
      } else {
        var reg1 := reg.(keys := if p in reg.keys then reg.keys else reg.keys[p := map[]]);
        assert p[..|p| - 1] == full[..depth];
        assert CreatePath(reg, full, depth) == CreatePath(reg1, full, depth + 1);
        CreatePathKeepsLevels(reg1, full, depth + 1);
        CreatedUpToDeniedStep(reg, reg1, CreatePath(reg1, full, depth + 1).reg, full, depth);
      }
    }
  }

  /** A denied level stops the chain: nothing after it is owed. */
  lemma DeniedStopsChain(reg: Registry, after: Registry, full: Path, depth: nat)
    requires depth < |full| && full[..depth + 1] in reg.denied
    ensures CreatedUpToDenied(reg, after, full, depth)
  {
    forall k | depth < k <= |full|
      ensures !NoneDenied(reg, full, depth, k)
    {
      assert full[..depth + 1] in reg.denied;
    }
  }

  /** One step of the create chain: the level just created is kept, and the
      later levels are covered by the rest of the chain. */
  lemma CreatedUpToDeniedStep(reg: Registry, reg1: Registry, after: Registry, full: Path, depth: nat)
    requires depth < |full|
    requires reg1.denied == reg.denied && full[..depth + 1] in reg1.keys
    requires forall q :: q in reg1.keys ==> q in after.keys
    requires CreatedUpToDenied(reg1, after, full, depth + 1)
    ensures CreatedUpToDenied(reg, after, full, depth)
  {
    forall k | depth < k <= |full| && NoneDenied(reg, full, depth, k)
      ensures full[..k] in after.keys
    {
      if k > depth + 1 {
        assert NoneDenied(reg1, full, depth + 1, k);
      }
    }
  }

  /** `GetKey(true)`: open every level read-only. */
  function GetKeyRead(reg: Registry, n: Names): (r: Option<Path>)
    ensures r.Some? <==> forall k :: 1 <= k <= 4 ==> Opens(reg, KeyPath(n)[..k])
    ensures r.Some? ==> r.value == KeyPath(n) && r.value in reg.keys
  {
    assert KeyPath(n)[..4] == KeyPath(n);
    OpenPath(reg, KeyPath(n), 0)
  }

  /** `GetKey(false)`: open `Software` for writing (it is never created: a
      missing `Software` key yields null), then create-or-open the company,
      product and form levels. */
  function GetKeyWrite(reg: Registry, n: Names): (r: KeyOpen)
    ensures r.reg.denied == reg.denied && r.reg.protectedValues == reg.protectedValues
    ensures forall q :: q in reg.keys ==> q in r.reg.keys && r.reg.keys[q] == reg.keys[q]
    ensures forall q :: q in r.reg.keys && q !in reg.keys ==>
              1 < |q| <= 4 && q == KeyPath(n)[..|q|] && r.reg.keys[q] == map[]
    ensures r.key.Some? <==> Opens(reg, [SoftwareKey]) && forall k :: 1 < k <= 4 ==> KeyPath(n)[..k] !in reg.denied
    ensures r.key.Some? ==> r.key.value == KeyPath(n) && forall k :: 1 <= k <= 4 ==> Opens(r.reg, KeyPath(n)[..k])
    ensures PrefixClosed(reg) ==> PrefixClosed(r.reg)
  {
    var full := KeyPath(n);
    assert full[..1] == [SoftwareKey];
    if !Opens(reg, full[..1]) then
      KeyOpen(reg, None)
    else
      CreatePath(reg, full, 1)
  }

  /** `Save(window)` returns this flag; the registry is changed even when it is
      false, if `GetKey` created levels before something threw. */
  datatype SaveResult = SaveResult(ok: bool, reg: Registry)

  /** `Save(window)`: open the key for writing and store the window's
      placement text (`Save(key, window)`); any failure is caught and reported
      as `false`. */
  function Save(reg: Registry, n: Names, c: Codec, current: Placement): (r: SaveResult)
    ensures r.ok <==> Opens(reg, [SoftwareKey])
                      && (forall k :: 1 < k <= 4 ==> KeyPath(n)[..k] !in reg.denied)
                      && KeyPath(n) !in reg.protectedValues
    ensures r.ok ==> (KeyPath(n) in r.reg.keys &&
              r.reg.keys[KeyPath(n)] == (if KeyPath(n) in reg.keys then reg.keys[KeyPath(n)] else map[])[PlacementValue := GetPlacement(c, current)])
    ensures r.reg.denied == reg.denied && r.reg.protectedValues == reg.protectedValues
    ensures forall q :: q in reg.keys && q != KeyPath(n) ==> q in r.reg.keys && r.reg.keys[q] == reg.keys[q]
    ensures forall q :: q in r.reg.keys && q !in reg.keys ==> 1 < |q| <= 4 && q == KeyPath(n)[..|q|]
    ensures !r.ok ==> forall q :: q in reg.keys ==> q in r.reg.keys && r.reg.keys[q] == reg.keys[q]
    ensures forall q :: q in r.reg.keys && q !in reg.keys && (q != KeyPath(n) || !r.ok) ==> r.reg.keys[q] == map[]
    ensures PrefixClosed(reg) ==> PrefixClosed(r.reg)
  {
    var w := GetKeyWrite(reg, n);
    match w.key
    case None => SaveResult(false, w.reg)
    case Some(k) =>
      assert KeyPath(n)[..4] == KeyPath(n);
      if k in w.reg.protectedValues then
        SaveResult(false, w.reg)
      else
        SaveResult(true, w.reg.(keys := w.reg.keys[k := w.reg.keys[k][PlacementValue := GetPlacement(c, current)]]))
  }

  /** When the form level cannot be created, `Save` returns `false` but the
      company and product levels it created on the way stay in the
      registry. */
  lemma SaveFailureKeepsCreatedLevels(reg: Registry, n: Names, c: Codec, current: Placement)
    requires Opens(reg, [SoftwareKey])
    requires KeyPath(n)[..2] !in reg.denied && KeyPath(n)[..3] !in reg.denied && KeyPath(n) in reg.denied
    ensures !Save(reg, n, c, current).ok
    ensures KeyPath(n)[..2] in Save(reg, n, c, current).reg.keys && KeyPath(n)[..3] in Save(reg, n, c, current).reg.keys
  {
    var full := KeyPath(n);
    assert full[..1] == [SoftwareKey];
    assert full[..4] == full;
    CreatePathKeepsLevels(reg, full, 1);
    assert NoneDenied(reg, full, 1, 2);
    assert NoneDenied(reg, full, 1, 3);
  }

  /** What `Restore(window)` did: it found no key (returned `false` without
      touching the window), or it found the key and passed the stored text
      (null when there is no `Placement` value) to `SetPlacement`. */
  datatype RestoreResult = NotFound | Restored(text: Option<string>)

  /** `Restore(window)` up to the `SetPlacement` call. */
  function Restore(reg: Registry, n: Names): (r: RestoreResult)
    ensures r.NotFound? <==> exists k :: 1 <= k <= 4 && !Opens(reg, KeyPath(n)[..k])
    ensures r.Restored? ==> (KeyPath(n) in reg.keys &&
              r.text == (if PlacementValue in reg.keys[KeyPath(n)] then Some(reg.keys[KeyPath(n)][PlacementValue]) else None))
  {
    match GetKeyRead(reg, n)
    case None => NotFound
    case Some(k) =>
      var values := reg.keys[k];
      Restored(if PlacementValue in values then Some(values[PlacementValue]) else None)
  }

  /** `Restore(window)` including the `SetPlacement` call it makes, with the
      rejection test of the `SetPlacement` copy in use. `applied` is `None`
      when `SetPlacement` was never called. An exception escaping
      `SetPlacement` is caught by `Restore`, which then returns `false`. */
  datatype RestoreWindowResult = RestoreWindowResult(ok: bool, applied: Option<SetOutcome>)

  function RestoreWindow(reg: Registry, n: Names, isBad: Option<string> -> bool, decode: string -> Option<Placement>): (r: RestoreWindowResult)
    ensures r.applied.None? <==> Restore(reg, n).NotFound?
    ensures r.ok <==> r.applied.Some? && r.applied.value != Escaped
    ensures Restore(reg, n).Restored? ==> r.applied == Some(SetPlacement(isBad, decode, Restore(reg, n).text))
  {
    match Restore(reg, n)
    case NotFound => RestoreWindowResult(false, None)
    case Restored(text) =>
      var outcome := SetPlacement(isBad, decode, text);
      RestoreWindowResult(outcome != Escaped, Some(outcome))
  }

  /** With the Common `SetPlacement`, `Restore` is `true` exactly when the key
      exists, whether or not a `Placement` value is stored under it. */
  lemma RestoreTrueIffKeyExists(reg: Registry, n: Names, decode: string -> Option<Placement>)
    ensures RestoreWindow(reg, n, IsNullOrEmpty, decode).ok <==> forall k :: 1 <= k <= 4 ==> Opens(reg, KeyPath(n)[..k])
    ensures Restore(reg, n) == Restored(None) ==> RestoreWindow(reg, n, IsNullOrEmpty, decode) == RestoreWindowResult(true, Some(Skipped))
  {
  }

  /** Creating the levels a second time changes nothing. */
  lemma {:induction false} CreatePathIdempotent(reg: Registry, full: Path, depth: nat)
    requires depth <= |full|
    requires full[..depth] in reg.keys
    ensures CreatePath(CreatePath(reg, full, depth).reg, full, depth) == CreatePath(reg, full, depth)
    decreases |full| - depth
  {
    if depth < |full| && full[..depth + 1] !in reg.denied {
      var p := full[..depth + 1];
      var reg1 := reg.(keys := if p in reg.keys then reg.keys else reg.keys[p := map[]]);
      CreatePathStep(reg, full, depth);
      var r := CreatePath(reg1, full, depth + 1);
      // After the first pass `p` exists, so the second pass only opens it.
      CreatePathStep(r.reg, full, depth);
      assert r.reg.(keys := if p in r.reg.keys then r.reg.keys else r.reg.keys[p := map[]]) == r.reg;
      CreatePathIdempotent(reg1, full, depth + 1);
    }
  }

  /** One level of the create chain, unfolded. */
  lemma CreatePathStep(reg: Registry, full: Path, depth: nat)
    requires depth < |full| && full[..depth] in reg.keys && full[..depth + 1] !in reg.denied
    ensures var p := full[..depth + 1];
      var reg1 := reg.(keys := if p in reg.keys then reg.keys else reg.keys[p := map[]]);
      p in reg1.keys && CreatePath(reg, full, depth) == CreatePath(reg1, full, depth + 1)
  {
  }

  /** `GetKey(false)` is idempotent: opening the key a second time creates
      nothing more and yields the same key. */
  lemma GetKeyWriteIdempotent(reg: Registry, n: Names)
    ensures GetKeyWrite(GetKeyWrite(reg, n).reg, n) == GetKeyWrite(reg, n)
  {
    var full := KeyPath(n);
    assert full[..1] == [SoftwareKey];
    if Opens(reg, full[..1]) {
      CreatePathIdempotent(reg, full, 1);
    }
  }

  /** Saving twice under the same names leaves a single `Placement` value, the
      latest text, and creates no more keys than saving once. */
  lemma SaveTwiceKeepsLatest(reg: Registry, n: Names, c: Codec, first: Placement, second: Placement)
    requires Save(reg, n, c, first).ok
    ensures var r2 := Save(Save(reg, n, c, first).reg, n, c, second);
      r2.ok && r2.reg.keys.Keys == Save(reg, n, c, first).reg.keys.Keys &&
      r2.reg.keys[KeyPath(n)][PlacementValue] == GetPlacement(c, second)
  {
    var r1 := Save(reg, n, c, first);
    var o1 := GetKeyWrite(reg, n);
    var o2 := GetKeyWrite(r1.reg, n);
    // `r1.reg` differs from `o1.reg` only in the values of the form key, so the
    // second `GetKey(false)` creates nothing.
    assert o2.reg.keys.Keys == r1.reg.keys.Keys;
  }

  /** `Save` followed by `Restore` under the same names passes exactly the
      saved text to `SetPlacement`. */
  lemma SaveThenRestore(reg: Registry, n: Names, c: Codec, current: Placement)
    requires Save(reg, n, c, current).ok
    ensures Restore(Save(reg, n, c, current).reg, n) == Restored(Some(GetPlacement(c, current)))
  {
    var r := Save(reg, n, c, current);
    var o := GetKeyWrite(reg, n);
    forall k | 1 <= k <= 4
      ensures Opens(r.reg, KeyPath(n)[..k])
    {
      assert Opens(o.reg, KeyPath(n)[..k]);
    }
  }

  /** End to end: a window saved with placement `p` and restored under the
      same names gets `Normalize(p)` applied, provided the serializer
      round-trips `p` and its text is not empty. */
  lemma SaveThenRestoreWindow(reg: Registry, n: Names, c: Codec, p: Placement)
    requires Save(reg, n, c, p).ok
    requires LosslessOn(c, p) && GetPlacement(c, p) != ""
    ensures RestoreWindow(Save(reg, n, c, p).reg, n, IsNullOrEmpty, c.decode) == RestoreWindowResult(true, Some(Applied(Normalize(p))))
  {
    SaveThenRestore(reg, n, c, p);
  }

  /** Saving under one set of names leaves what `Restore` finds under any other
      form id unchanged, in a registry whose keys all have parents. */
  lemma {:induction false} SaveDoesNotDisturbOtherForms(reg: Registry, n: Names, m: Names, c: Codec, p: Placement)
    requires PrefixClosed(reg)
    requires m.formId != n.formId
    ensures Restore(Save(reg, n, c, p).reg, m) == Restore(reg, m)
  {
    var r := Save(reg, n, c, p);
    var target := KeyPath(m);
    assert target != KeyPath(n) by { assert target[3] != KeyPath(n)[3]; }
    assert target[..4] == target;
    if target in reg.keys {
      // Every level of `target` already exists, so its openability and its
      // values are the same before and after.
      forall k | 1 <= k <= 4
        ensures target[..k] in reg.keys
      {
        PrefixOfExistingKey(reg, target, k);
      }
      forall k | 1 <= k <= 4
        ensures Opens(r.reg, target[..k]) == Opens(reg, target[..k])
      {
        assert target[..k] != KeyPath(n) by { assert |target[..k]| == 4 ==> target[..k] == target; }
      }
    } else {
      assert target !in r.reg.keys;
      assert !Opens(reg, target[..4]) && !Opens(r.reg, target[..4]);
    }
  }

  /** In a prefix-closed registry every prefix of an existing key exists. */
  lemma {:induction false} PrefixOfExistingKey(reg: Registry, q: Path, k: nat)
    requires PrefixClosed(reg)
    requires q in reg.keys
    requires 1 <= k <= |q|
    ensures q[..k] in reg.keys
    decreases |q| - k
  {
    if k < |q| {
      PrefixOfExistingKey(reg, q, k + 1);
      assert q[..k + 1][..k] == q[..k];
    } else {
      assert q[..k] == q;
    }
  }

  /** A window saved with bounds (10, 20, 800, 600) in the normal state comes
      back with those bounds, normal; one saved minimized comes back normal. */
  lemma EndToEndExamples(reg: Registry, n: Names, c: Codec, p: Placement)
    requires Save(reg, n, c, p).ok
    requires LosslessOn(c, p) && GetPlacement(c, p) != ""
    requires p.normalPosition == FsRect(10, 20, 800, 600)
    requires p.showCmd == ShowNormal || p.showCmd == ShowMinimized
    ensures var r := RestoreWindow(Save(reg, n, c, p).reg, n, IsNullOrEmpty, c.decode);
      r.ok && r.applied.value.Applied? &&
      r.applied.value.placement.normalPosition == FsRect(10, 20, 800, 600) &&
      r.applied.value.placement.showCmd == ShowNormal
  {
    SaveThenRestoreWindow(reg, n, c, p);
  }

  /** The defaults address `Software\Foo\Bar\MainForm`. */
  lemma DefaultAddress()
    ensures KeyPath(DefaultNames) == ["Software", "Foo", "Bar", "MainForm"]
    ensures PlacementValue == "Placement"
  {
  }
}

=== FILE: grid_helper.dfy ===
/** `GridHelper`: the attached properties `RowCount`, `ColumnCount`,
    `StarRows` and `StarColumns` of a grid, and their change callbacks.

    A count builds that many `Auto` definitions; a star specification (`"All"`,
    or a comma-separated list of indices) turns the named definitions into
    `Star(1)`. Rows and columns are handled by the same code on different
    fields, so the model is written once over an `Axis`. The Core and Common
    copies differ only in the test a star specification must pass before it is
    applied (`accepts`). `Like` (an external extension) is the uninterpreted
    parameter `like`. */
module GridHelper {
  import opened Wrappers
  import opened Text

  /** `GridLength`: its numeric value is a double in the source and an integer
      here; only `Star(1)` is ever produced. */
  datatype GridLength = Auto | Pixel(value: int) | Star(factor: int)

  /** A grid: its row and column definitions, and the current values of the
      `StarRows` and `StarColumns` attached properties. */
  datatype Grid = Grid(rows: seq<GridLength>, columns: seq<GridLength>, starRows: string, starColumns: string)

  /** The dependency object a callback receives: a grid, or anything else. */
  datatype Target = GridTarget(grid: Grid) | OtherTarget

  datatype Axis = Rows | Columns

  /** The default of `RowCount` and `ColumnCount`. */
  const DefaultCount: Int32 := -1
  /** The default of `StarRows` and `StarColumns`. */
  const DefaultStars: string := ""
  /** The specification that stars every definition (compared with `Like`). */
  const AllStars: string := "All"

  function Definitions(g: Grid, axis: Axis): seq<GridLength> {
    match axis
    case Rows => g.rows
    case Columns => g.columns
  }

  function StarSpec(g: Grid, axis: Axis): string {
    match axis
    case Rows => g.starRows
    case Columns => g.starColumns
  }

  function WithDefinitions(g: Grid, axis: Axis, defs: seq<GridLength>): (r: Grid)
    ensures Definitions(r, axis) == defs
    ensures r.starRows == g.starRows && r.starColumns == g.starColumns
  {
    match axis
    case Rows => g.(rows := defs)
    case Columns => g.(columns := defs)
  }

  function WithStarSpec(g: Grid, axis: Axis, spec: string): (r: Grid)
    ensures StarSpec(r, axis) == spec
    ensures r.rows == g.rows && r.columns == g.columns
  {
    match axis
    case Rows => g.(starRows := spec)
    case Columns => g.(starColumns := spec)
  }

  function Other(axis: Axis): Axis {
    match axis
    case Rows => Columns
    case Columns => Rows
  }

  /** Index `i` is named by the specification: it is `"All"`, or one of its
      comma-separated tokens is exactly the decimal text of `i`. */
  predicate Starred(spec: string, i: nat, like: (string, string) -> bool) {
    like(spec, AllStars) || NatToString(i) in Split(spec, ',')
  }

  /** The loop of `SetStarRows`/`SetStarColumns` from index `i` on, with the
      tokens and the "all" test computed once before it. */
  function MarkFrom(defs: seq<GridLength>, tokens: seq<string>, all: bool, i: nat): (r: seq<GridLength>)
    requires i <= |defs|
    ensures |r| == |defs|
    ensures forall j :: 0 <= j < i ==> r[j] == defs[j]
    ensures forall j :: i <= j < |defs| ==> r[j] == (if all || NatToString(j) in tokens then Star(1) else defs[j])
    decreases |defs| - i
  {
    if i == |defs| then defs
    else
      var d := if all || NatToString(i) in tokens then Star(1) else defs[i];
      MarkFrom(defs[i := d], tokens, all, i + 1)
  }

  /** `SetStarRows(grid)` / `SetStarColumns(grid)` on one list of
      definitions: exactly the starred indices become `Star(1)`, every other
      definition is kept, and none is added or removed. */
  function SetStars(defs: seq<GridLength>, spec: string, like: (string, string) -> bool): (r: seq<GridLength>)
    ensures |r| == |defs|
    ensures forall j :: 0 <= j < |defs| ==> r[j] == (if Starred(spec, j, like) then Star(1) else defs[j])
  {
    MarkFrom(defs, Split(spec, ','), like(spec, AllStars), 0)
  }

  /** Star marking only ever turns a definition into `Star(1)`, and marking
      twice is marking once. */
  lemma SetStarsMonotoneIdempotent(defs: seq<GridLength>, spec: string, like: (string, string) -> bool)
    ensures forall j :: 0 <= j < |defs| ==> SetStars(defs, spec, like)[j] in {defs[j], Star(1)}
    ensures forall j :: 0 <= j < |defs| && defs[j] == Auto && SetStars(defs, spec, like)[j] == Auto ==> !Starred(spec, j, like)
    ensures SetStars(SetStars(defs, spec, like), spec, like) == SetStars(defs, spec, like)
  {
  }

  /** Apply the axis's own specification to the axis's definitions. */
  function SetStarsOn(g: Grid, axis: Axis, like: (string, string) -> bool): (r: Grid)
    ensures Definitions(r, axis) == SetStars(Definitions(g, axis), StarSpec(g, axis), like)
    ensures Definitions(r, Other(axis)) == Definitions(g, Other(axis))
    ensures r.starRows == g.starRows && r.starColumns == g.starColumns
  {
    WithDefinitions(g, axis, SetStars(Definitions(g, axis), StarSpec(g, axis), like))
  }

  /** `RowCountChanged` / `ColumnCountChanged` with the new count `n`: on a
      grid and for `n >= 0`, the definitions are cleared, `n` `Auto`
      definitions are added, and the star specification is applied to them;
      otherwise nothing happens. */
  function CountChanged(target: Target, axis: Axis, n: Int32, like: (string, string) -> bool): (r: Target)
    ensures target.OtherTarget? || n < 0 ==> r == target
    ensures target.GridTarget? && n >= 0 ==>
              && r.GridTarget?
              && |Definitions(r.grid, axis)| == n
              && (forall i :: 0 <= i < n ==>
                    Definitions(r.grid, axis)[i] == (if Starred(StarSpec(target.grid, axis), i, like) then Star(1) else Auto))
              && Definitions(r.grid, Other(axis)) == Definitions(target.grid, Other(axis))
              && r.grid.starRows == target.grid.starRows && r.grid.starColumns == target.grid.starColumns
  {
    match target
    case OtherTarget => target
    case GridTarget(g) =>
      if n < 0 then target
      else
        var cleared := WithDefinitions(g, axis, seq(n, _ => Auto));
        GridTarget(SetStarsOn(cleared, axis, like))
  }

  /** The default count `-1` never touches the grid. */
  lemma DefaultCountIsNoop(target: Target, axis: Axis, like: (string, string) -> bool)
    ensures CountChanged(target, axis, DefaultCount, like) == target
  {
  }

  /** `StarRowsChanged` / `StarColumnsChanged` after the attached property
      was set to `value`: on a grid, and when `value` passes the copy's test,
      the specification is applied to the existing definitions. */
  function StarsChanged(target: Target, axis: Axis, value: string, accepts: string -> bool, like: (string, string) -> bool): (r: Target)
    ensures target.OtherTarget? ==> r == target
    ensures target.GridTarget? ==> r.GridTarget? && StarSpec(r.grid, axis) == value
    ensures target.GridTarget? && !accepts(value) ==> Definitions(r.grid, axis) == Definitions(target.grid, axis)
    ensures target.GridTarget? && accepts(value) ==>
              Definitions(r.grid, axis) == SetStars(Definitions(target.grid, axis), value, like)
    ensures r.GridTarget? ==> Definitions(r.grid, Other(axis)) == Definitions(target.grid, Other(axis))
  {
    match target
    case OtherTarget => target
    case GridTarget(g) =>
      var stored := WithStarSpec(g, axis, value);
      if accepts(value) then GridTarget(SetStarsOn(stored, axis, like)) else GridTarget(stored)
  }

  /** The Common copy's test: `!String.IsNullOrEmpty(value)`. */
  predicate CommonAccepts(value: string) {
    value != ""
  }

  /** With the Common test, an empty specification does nothing to the
      definitions. */
  lemma CommonIgnoresEmpty(target: Target, axis: Axis, like: (string, string) -> bool)
    requires target.GridTarget?
    ensures Definitions(StarsChanged(target, axis, "", CommonAccepts, like).grid, axis) == Definitions(target.grid, axis)
  {
  }

  /** Tokens are compared exactly, without trimming: `"0, 1"` splits into
      `"0"` and `" 1"`, so it stars index 0 but not index 1. */
  lemma TokensAreNotTrimmed(like: (string, string) -> bool)
    requires !like("0, 1", AllStars)
    ensures Starred("0, 1", 0, like)
    ensures !Starred("0, 1", 1, like)
  {
    var parts := ["0", " 1"];
    assert Join(parts, ',') == "0, 1";
    SplitJoin(parts, ',');
    assert NatToString(0) == "0";
    assert NatToString(1) == "1";
    assert NatToString(1) != " 1";
  }

  /** A starred index that is not covered by `"All"` is named by a token
      that parses back to exactly that index. */
  lemma StarredIndexIsNamed(spec: string, i: nat, like: (string, string) -> bool)
    requires Starred(spec, i, like) && !like(spec, AllStars)
    ensures exists t :: t in Split(spec, ',') && ParseNat(t) == Some(i)
  {
    ParseNatToString(i);
  }

  /** Swapping rows and columns. */
  function Transpose(t: Target): Target {
    match t
    case OtherTarget => t
    case GridTarget(g) => GridTarget(Grid(g.columns, g.rows, g.starColumns, g.starRows))
  }

  /** Column handling mirrors row handling. */
  lemma ColumnsMirrorRows(target: Target, n: Int32, value: string, accepts: string -> bool, like: (string, string) -> bool)
    ensures CountChanged(target, Columns, n, like) == Transpose(CountChanged(Transpose(target), Rows, n, like))
    ensures StarsChanged(target, Columns, value, accepts, like) == Transpose(StarsChanged(Transpose(target), Rows, value, accepts, like))
  {
  }
}

=== FILE: localization.dfy ===
/** `LocalizationManager`: key lookup with a bracketed fallback, the list of
    available cultures, the current UI culture and its change notification,
    and switching culture by three-letter language name.

    The process-wide state (the thread's UI culture, the default UI culture of
    new threads and the number of `CultureChanged` events raised) is an
    explicit `CultureState` value. The installed `ILocalizationProvider` is an
    `Option<Provider>` of uninterpreted functions. */
module Localization {
  import opened Wrappers

  /** A `CultureInfo`, identified by its name and its three-letter ISO
      language name. `Equals` on cultures is equality of these values. */
  datatype Culture = Culture(name: string, threeLetter: string)

  /** What `GetObject` can return: a string, null, or some other object. */
  datatype LocalizedObject = StringObject(text: string) | NullObject | OtherObject(id: nat)

  /** An `ILocalizationProvider`: its two lookups and its `Cultures`
      collection (which may itself be null). */
  datatype Provider = Provider(
    getString: Option<string> -> Option<string>,
    getObject: Option<string> -> LocalizedObject,
    cultures: Option<seq<Culture>>)

  /** The text that stands in the fallback for a null or empty key. */
  const NullKeyText: string := "NULL"

  /** The answer without a provider: the key in square brackets, with
      `NULL` standing for a null or empty key. */
  function Fallback(key: Option<string>): (r: string)
    ensures |r| >= 2 && r[0] == '[' && r[|r| - 1] == ']'
    ensures key.None? || key.value == "" ==> r[1..|r| - 1] == NullKeyText
    ensures key.Some? && key.value != "" ==> r[1..|r| - 1] == key.value
  {
    if key.None? || key.value == "" then "[" + NullKeyText + "]" else "[" + key.value + "]"
  }

  /** Non-empty keys give distinct fallbacks: the key can be read back from
      between the brackets. */
  lemma FallbackInjective(k1: string, k2: string)
    requires k1 != "" && k2 != ""
    requires Fallback(Some(k1)) == Fallback(Some(k2))
    ensures k1 == k2
  {
    var f := Fallback(Some(k1));
    assert f[1..|f| - 1] == k1;
  }

  /** ... but the literal key `"NULL"` cannot be told apart from a missing key. */
  lemma FallbackNullCollision()
    ensures Fallback(None) == Fallback(Some("")) == Fallback(Some(NullKeyText))
  {
  }

  /** `LocalizationManager.GetString(key)`: the provider's answer, unchanged,
      when one is installed; otherwise the fallback. */
  function GetString(provider: Option<Provider>, key: Option<string>): (r: Option<string>)
    ensures provider.Some? ==> r == provider.value.getString(key)
    ensures provider.None? ==> r.Some? && |r.value| >= 2 && r.value[0] == '[' && r.value[|r.value| - 1] == ']'
    ensures provider.None? && key.Some? && key.value != "" ==> r == Some("[" + key.value + "]")
    ensures provider.None? && (key.None? || key.value == "") ==> r == Some("[NULL]")
  {
    match provider
    case Some(p) => p.getString(key)
    case None =>
      assert "[" + NullKeyText + "]" == "[NULL]";
      Some(Fallback(key))
  }

  /** `LocalizationManager.GetObject(key)`: the same rule, with the fallback
      text returned as a string object. */
  function GetObject(provider: Option<Provider>, key: Option<string>): (r: LocalizedObject)
    ensures provider.Some? ==> r == provider.value.getObject(key)
    ensures provider.None? ==> r == StringObject(Fallback(key))
  {
    match provider
    case Some(p) => p.getObject(key)
    case None => StringObject(Fallback(key))
  }

  /** Without a provider, both lookups give the same text. */
  lemma GetObjectMatchesGetString(key: Option<string>)
    ensures GetObject(None, key) == StringObject(GetString(None, key).value)
  {
  }

  /** The process-wide culture state: `Thread.CurrentThread.CurrentUICulture`,
      `CultureInfo.DefaultThreadCurrentUICulture` and the number of
      `CultureChanged` events raised so far. */
  datatype CultureState = CultureState(current: Culture, defaultUi: Option<Culture>, raised: nat)

  /** The `CurrentCulture` setter. An equal culture is a no-op; otherwise the
      thread culture is replaced, the default for new threads too (except in
      the .NET 4.0 build, `net40`), and `CultureChanged` is raised once. */
  function SetCurrentCulture(st: CultureState, value: Culture, net40: bool): (r: CultureState)
    ensures value == st.current ==> r == st
    ensures value != st.current ==> r.current == value && r.raised == st.raised + 1
    ensures value != st.current && !net40 ==> r.defaultUi == Some(value)
    ensures net40 ==> r.defaultUi == st.defaultUi
    ensures r.current == value
  {
    if value == st.current then st
    else CultureState(value, if net40 then st.defaultUi else Some(value), st.raised + 1)
  }

  /** Setting the same culture twice raises the event at most once. */
  lemma SetCurrentCultureIdempotent(st: CultureState, value: Culture, net40: bool)
    ensures SetCurrentCulture(SetCurrentCulture(st, value, net40), value, net40) == SetCurrentCulture(st, value, net40)
    ensures SetCurrentCulture(st, value, net40).raised <= st.raised + 1
  {
  }

  /** `LocalizationManager.Cultures`: the provider's collection, or the
      current culture alone when there is no provider or it has none. */
  function Cultures(provider: Option<Provider>, st: CultureState): (r: seq<Culture>)
    ensures provider.Some? && provider.value.cultures.Some? ==> r == provider.value.cultures.value
    ensures provider.None? || provider.value.cultures.None? ==> r == [st.current]
  {
    if provider.Some? && provider.value.cultures.Some? then provider.value.cultures.value else [st.current]
  }

  /** `FirstOrDefault(c => c.ThreeLetterISOLanguageName == value)`. */
  function FindByThreeLetter(cultures: seq<Culture>, value: string): (r: Option<Culture>)
    ensures r.None? <==> forall i :: 0 <= i < |cultures| ==> cultures[i].threeLetter != value
    ensures r.Some? ==> exists i :: 0 <= i < |cultures| && cultures[i] == r.value && r.value.threeLetter == value
                                  && forall j :: 0 <= j < i ==> cultures[j].threeLetter != value
    decreases |cultures|
  {
    if cultures == [] then None
    else if cultures[0].threeLetter == value then Some(cultures[0])
    else
      var rest := FindByThreeLetter(cultures[1..], value);
      assert forall i :: 1 <= i < |cultures| ==> cultures[i] == cultures[1..][i - 1];
      rest
  }

  /** `new CultureInfo(value)` failing with `CultureNotFoundException`. */
  datatype CultureError = CultureNotFound(name: string)

  /** `LocalizationManager.ChangeLocalization(value)`: the first available
      culture with that three-letter name, or else a culture constructed from
      `value` (by `construct`, which may fail), becomes current. */
  function ChangeLocalization(provider: Option<Provider>, st: CultureState, value: string, net40: bool,
                              construct: string -> Result<Culture, CultureError>): (r: Result<CultureState, CultureError>)
    ensures FindByThreeLetter(Cultures(provider, st), value).Some? ==>
              r.Success? && r.value.current.threeLetter == value && r.value.current in Cultures(provider, st)
    ensures FindByThreeLetter(Cultures(provider, st), value).None? ==>
              r == (match construct(value)
                    case Failure(e) => Failure(e)
                    case Success(c) => Success(SetCurrentCulture(st, c, net40)))
    ensures r.Success? ==> r.value.raised <= st.raised + 1
    ensures r.Success? && r.value.current == st.current ==> r.value == st
  {
    var cc := st.current;
    var found := FindByThreeLetter(Cultures(provider, st), value);
    var fc := if found.Some? then Success(found.value) else construct(value);
    match fc
    case Failure(e) => Failure(e)
    case Success(c) =>
      if c == cc then Success(st) else Success(SetCurrentCulture(st, c, net40))
  }

  /** The early return in `ChangeLocalization` only repeats the setter's own
      equality test: the result is exactly the setter applied to the chosen
      culture. */
  lemma ChangeLocalizationIsSetter(provider: Option<Provider>, st: CultureState, value: string, net40: bool,
                                   construct: string -> Result<Culture, CultureError>)
    requires FindByThreeLetter(Cultures(provider, st), value).Some?
    ensures ChangeLocalization(provider, st, value, net40, construct)
         == Success(SetCurrentCulture(st, FindByThreeLetter(Cultures(provider, st), value).value, net40))
  {
  }

  /** Without a provider, asking for the current culture's own language
      changes nothing, raises nothing and never constructs a culture. */
  lemma ChangeToCurrentLanguageIsNoop(st: CultureState, net40: bool, construct: string -> Result<Culture, CultureError>)
    ensures ChangeLocalization(None, st, st.current.threeLetter, net40, construct) == Success(st)
  {
  }
}

=== FILE: localize_extension.dfy ===
/** `LocalizeExtension`, the `{Localize ...}` markup extension: its argument
    checks and the choice between a binding-based and a key-based listener.

    Bindings and argument objects are opaque references. What WPF does with
    the returned objects (`MultiBinding.ProvideValue`, the listeners' event
    subscriptions) is not modelled; `ProvideValue` returns a description of
    the object it builds. */
module LocalizeExtension {
  import opened Wrappers

  /** A `Binding` / `BindingBase` supplied in XAML. */
  datatype BindingRef = BindingRef(id: nat)

  /** One element of `Arguments`. */
  datatype Arg = Arg(id: nat)

  /** The extension's four properties. `argumentBindings` is the backing
      field `_arguments`, null until the getter or the setter runs. */
  datatype Ext = Ext(
    key: Option<string>,
    keyBinding: Option<BindingRef>,
    arguments: Option<seq<Arg>>,
    argumentBindings: Option<seq<BindingRef>>)

  /** `new LocalizeExtension(key)`. */
  function NewExt(key: Option<string>): (e: Ext)
    ensures e.key == key && e.keyBinding.None? && e.arguments.None? && e.argumentBindings.None?
  {
    Ext(key, None, None, None)
  }

  /** The `ArgumentBindings` getter: the collection, created empty on first
      access. Returns the extension afterwards and the collection. */
  function GetArgumentBindings(e: Ext): (r: (Ext, seq<BindingRef>))
    ensures r.0.argumentBindings == Some(r.1)
    ensures e.argumentBindings.Some? ==> r.0 == e && r.1 == e.argumentBindings.value
    ensures e.argumentBindings.None? ==> r.1 == [] && r.0 == e.(argumentBindings := Some([]))
  {
    match e.argumentBindings
    case Some(b) => (e, b)
    case None => (e.(argumentBindings := Some([])), [])
  }

  /** The getter never yields null, and a second read sees the same
      collection and changes nothing. */
  lemma GetArgumentBindingsStable(e: Ext)
    ensures var (e1, b1) := GetArgumentBindings(e);
      GetArgumentBindings(e1) == (e1, b1)
  {
  }

  /** The collection as the getter would return it, without the side effect. */
  function ArgumentBindings(e: Ext): (r: seq<BindingRef>)
    ensures r == GetArgumentBindings(e).1
    ensures e.argumentBindings.None? ==> r == []
  {
    e.argumentBindings.GetOr([])
  }

  /** The three `ArgumentException`s of `ProvideValue`. */
  datatype ExtError =
    | KeyAndKeyBinding                // both `Key` and `KeyBinding` are set
    | NeitherKeyNorKeyBinding         // neither is set
    | ArgumentsAndArgumentBindings    // `Arguments` and a non-empty `ArgumentBindings`

  /** The full type name of the target object WPF reports. */
  datatype TargetInfo = TargetInfo(typeFullName: string)

  /** The type name of the target WPF uses while a template is shared. */
  const SharedDp: string := "System.Windows.SharedDp"

  /** One child binding of the `MultiBinding`. */
  datatype ChildBinding =
    | ListenerBinding               // `new Binding { Source = listener }`
    | KeyBindingChild(b: BindingRef) // the given `KeyBinding`
    | KeySource(key: string)        // `new Binding { Source = Key }`
    | ArgumentChild(b: BindingRef)  // one of `ArgumentBindings`

  /** What `ProvideValue` returns. */
  datatype Provided =
    | Self                                   // the extension itself
    | Multi(bindings: seq<ChildBinding>, converterParameter: Option<seq<Arg>>)
    | NullValue                              // `default`
    | KeyListener(key: string, args: Option<seq<Arg>>)
      // a `KeyLocalizationListener`, used as the target demands

  /** The first failing argument check, in the order the source makes them. */
  function Validate(e: Ext): (r: Option<ExtError>)
    ensures r == Some(KeyAndKeyBinding) <==> e.key.Some? && e.keyBinding.Some?
    ensures r == Some(NeitherKeyNorKeyBinding) <==> e.key.None? && e.keyBinding.None?
    ensures r == Some(ArgumentsAndArgumentBindings) <==>
              (e.key.Some? != e.keyBinding.Some?) && e.arguments.Some? && |ArgumentBindings(e)| > 0
  {
    if e.key.Some? && e.keyBinding.Some? then Some(KeyAndKeyBinding)
    else if e.key.None? && e.keyBinding.None? then Some(NeitherKeyNorKeyBinding)
    else if e.arguments.Some? && |ArgumentBindings(e)| > 0 then Some(ArgumentsAndArgumentBindings)
    else None
  }

  /** The child bindings: the listener, then the key (as a binding, or as a
      constant source), then every argument binding in order. */
  function ChildBindings(e: Ext): (r: seq<ChildBinding>)
    requires e.key.Some? || e.keyBinding.Some?
    ensures |r| == 2 + |ArgumentBindings(e)|
    ensures r[0] == ListenerBinding
    ensures r[1] == (if e.keyBinding.Some? then KeyBindingChild(e.keyBinding.value) else KeySource(e.key.value))
    ensures forall i :: 0 <= i < |ArgumentBindings(e)| ==> r[2 + i] == ArgumentChild(ArgumentBindings(e)[i])
  {
    var keyChild := if e.keyBinding.Some? then KeyBindingChild(e.keyBinding.value) else KeySource(e.key.value);
    [ListenerBinding, keyChild] + seq(|ArgumentBindings(e)|, i requires 0 <= i < |ArgumentBindings(e)| => ArgumentChild(ArgumentBindings(e)[i]))
  }

  /** `LocalizeExtension.ProvideValue(serviceProvider)`, up to the choice of
      what to build. */
  function ProvideValue(e: Ext, target: TargetInfo): (r: Result<Provided, ExtError>)
    ensures r.Failure? <==> Validate(e).Some?
    ensures r.Failure? ==> r.error == Validate(e).value
    ensures r.Success? ==> (r.value == Self <==> target.typeFullName == SharedDp)
    ensures r.Success? && r.value.Multi? ==>
              && (e.keyBinding.Some? || |ArgumentBindings(e)| > 0)
              && r.value.bindings == ChildBindings(e)
              && r.value.converterParameter == e.arguments
    ensures r.Success? && target.typeFullName != SharedDp && (e.keyBinding.Some? || |ArgumentBindings(e)| > 0) ==> r.value.Multi?
    ensures r == Success(NullValue) <==>
              Validate(e).None? && target.typeFullName != SharedDp && e.keyBinding.None? && |ArgumentBindings(e)| == 0 && e.key == Some("")
    ensures r.Success? && r.value.KeyListener? ==> r.value.key != "" && Some(r.value.key) == e.key && r.value.args == e.arguments
  {
    match Validate(e)
    case Some(err) => Failure(err)
    case None =>
      if target.typeFullName == SharedDp then Success(Self)
      else if e.keyBinding.Some? || |ArgumentBindings(e)| > 0 then Success(Multi(ChildBindings(e), e.arguments))
      else if e.key.None? || e.key.value == "" then Success(NullValue)
      else Success(KeyListener(e.key.value, e.arguments))
  }

  /** The checks come before the target is looked at: a rejected extension is
      rejected the same way on every target. */
  lemma ValidationIgnoresTarget(e: Ext, t1: TargetInfo, t2: TargetInfo)
    requires ProvideValue(e, t1).Failure?
    ensures ProvideValue(e, t2) == ProvideValue(e, t1)
  {
  }

  /** The first failing check wins: setting both keys is reported even when
      the arguments conflict too. */
  lemma FirstCheckWins(key: string, b: BindingRef, args: seq<Arg>, bindings: seq<BindingRef>, t: TargetInfo)
    requires |bindings| > 0
    ensures ProvideValue(Ext(Some(key), Some(b), Some(args), Some(bindings)), t) == Failure(KeyAndKeyBinding)
  {
  }

  /** A plain key: `{Localize Key}` with no bindings yields a key listener,
      whatever the key's text, except that an empty key yields null. */
  lemma PlainKey(key: string, t: TargetInfo)
    requires t.typeFullName != SharedDp
    ensures key != "" ==> ProvideValue(NewExt(Some(key)), t) == Success(KeyListener(key, None))
    ensures key == "" ==> ProvideValue(NewExt(Some(key)), t) == Success(NullValue)
  {
  }
}

=== FILE: page_host.dfy ===
/** Page navigation: `PageHostViewModel<TPages>` and its older twin
    `PageWindowViewModel<TPages>`.

    A change of page runs the old page's and the new page's hooks in a fixed
    interleaving and swaps the host's fields; every exception inside it is
    swallowed, which can leave partial state behind. Reflection
    (`CreateByPage`) is abstracted: the attribute lookups and the assembly scan
    are inputs, and activation yields a fresh page. The navigation lock is
    not modelled (changes are sequential). */
module PageHost {
  import opened Wrappers
  import opened PageLifecycle

  /** Identity of a page view (`IPageView`). */
  datatype ViewRef = ViewRef(id: nat)
  /** A member of the `TPages` enumeration. */
  datatype PageId = PageId(name: string)

  /** The host's state: itself, its `Dialogs`, and the private fields
      `_viewModel`, `_view`, `_page`, `_url`. `viewModel` holds the current
      state of the page object the host refers to. */
  datatype Host = Host(
    self: HostRef,
    dialogs: Option<DialogsRef>,
    viewModel: Option<PageVm>,
    view: Option<ViewRef>,
    page: Option<PageId>,
    url: Option<string>)

  /** A freshly constructed host: every field null. */
  function NewHost(self: HostRef, dialogs: Option<DialogsRef>): (r: Host)
    ensures r.self == self && r.dialogs == dialogs && r.page.None? && r.url.None?
    ensures r.viewModel.None? && r.view.None? && HostConsistent(r)
  {
    Host(self, dialogs, None, None, None, None)
  }

  /** The page hooks `ChangePageTo` calls, named by the page they run on. */
  datatype Hook = OldBeforeHide | NewBeforeShow | OldAfterHide | NewAfterShow

  /** The properties announced after a completed change, in order. */
  const ChangedProperties: seq<string> := ["Page", "View", "ViewModel"]

  /** The hooks of one change in the order the code calls them; the old
      page's hooks only when there is an old page. */
  function HookOrder(hasOld: bool): seq<Hook> {
    if hasOld then [OldBeforeHide, NewBeforeShow, OldAfterHide, NewAfterShow]
    else [NewBeforeShow, NewAfterShow]
  }

  /** The outcome of one `ChangePageTo`: the host afterwards, the states of the
      new and the old page objects afterwards, the hooks that were called (the
      last one may have thrown), and the `PropertyChanged` notifications. */
  datatype Change = Change(host: Host, newVm: PageVm, oldVm: Option<PageVm>, hooks: seq<Hook>, notified: seq<string>) {
    predicate Completed() {
      notified == ChangedProperties
    }
  }

  /** The host is consistent: its current page, if any, is visible and
      attached to this host with the host's dialogs. */
  predicate HostConsistent(h: Host) {
    h.viewModel.None? ||
    (h.viewModel.value.visible && h.viewModel.value.host == Some(h.self) && h.viewModel.value.dialogs == h.dialogs)
  }

  /** `ChangePageTo(vm, view, url, page)`. `vm` is a different object from the
      current page. */
  function ChangePageTo(h: Host, vm: PageVm, view: ViewRef, url: Option<string>, page: Option<PageId>): (r: Change)
    ensures r.hooks <= HookOrder(h.viewModel.Some?) && |r.hooks| > 0
    ensures r.Completed() <==> r.hooks == HookOrder(h.viewModel.Some?)
    ensures r.Completed() <==> (h.viewModel.None? || h.viewModel.value.visible) && !vm.visible
    ensures !r.Completed() ==> r.host == h && r.notified == [] && r.oldVm == h.viewModel
    ensures r.Completed() ==>
              && r.host == h.(viewModel := Some(r.newVm), view := Some(view), page := page, url := url)
              && r.newVm.visible && r.newVm.host == Some(h.self) && r.newVm.dialogs == h.dialogs
              && r.newVm.designMode == vm.designMode
              && (r.oldVm.Some? ==> !r.oldVm.value.visible && r.oldVm.value.host.None? && r.oldVm.value.dialogs.None?)
              && HostConsistent(r.host)
    // A hidden old page refuses to hide: nothing at all has changed.
    ensures h.viewModel.Some? && !h.viewModel.value.visible ==> r.hooks == [OldBeforeHide] && r.newVm == vm
    // Otherwise a visible new page refuses to show, as the last hook called.
    ensures (h.viewModel.None? || h.viewModel.value.visible) && vm.visible ==> r.hooks[|r.hooks| - 1] == NewBeforeShow
    ensures r.Completed() ==> r.oldVm.Some? == h.viewModel.Some?
    ensures r.Completed() && r.oldVm.Some? ==> r.oldVm.value.designMode == h.viewModel.value.designMode
    // The new page refused to show: it already holds the host and its dialogs.
    ensures |r.hooks| > 0 && r.hooks[|r.hooks| - 1] == NewBeforeShow ==>
              r.newVm == vm.(dialogs := h.dialogs, host := Some(h.self)) && !r.Completed()
  {
    var ovm := h.viewModel;
    var before := if ovm.Some? then [OldBeforeHide] else [];
    if ovm.Some? && BeforeHide(ovm.value).Failure? then
      Change(h, vm, ovm, before, [])
    else
      // allow UI and navigation for the new page
      var attached := vm.(dialogs := h.dialogs, host := Some(h.self));
      if BeforeShow(attached).Failure? then
        assert (before + [NewBeforeShow])[|before|] == NewBeforeShow;
        Change(h, attached, ovm, before + [NewBeforeShow], [])
      else
        // disable UI and navigation for the old page, then hide it
        var hidden := if ovm.Some? then Some(AfterHide(ovm.value.(dialogs := None, host := None))) else None;
        var shown := AfterShow(attached);
        var h' := h.(viewModel := Some(shown), view := Some(view), page := page, url := url);
        Change(h', shown, hidden, before + [NewBeforeShow] + (if ovm.Some? then [OldAfterHide] else []) + [NewAfterShow], ChangedProperties)
  }

  /** The invariant of navigation: from a consistent host, a change to a
      hidden page completes, after which only the new page is visible and the
      old one is hidden and detached. */
  lemma ChangeKeepsOnlyCurrentVisible(h: Host, vm: PageVm, view: ViewRef, url: Option<string>, page: Option<PageId>)
    requires HostConsistent(h) && !vm.visible
    ensures var r := ChangePageTo(h, vm, view, url, page);
      r.Completed() && HostConsistent(r.host) && r.host.viewModel == Some(r.newVm) && r.newVm.visible &&
      (r.oldVm.Some? ==> !r.oldVm.value.visible)
  {
  }

  /** The debug assertions of the hooks in a completed change: the old page's
      `AfterHide` expectation always holds (it was detached just before), the
      new page's `AfterShow` expectation holds exactly when the host has a
      dialogs service or the page is in design mode. */
  lemma ChangeDebugExpectations(h: Host, vm: PageVm, view: ViewRef, url: Option<string>, page: Option<PageId>)
    requires ChangePageTo(h, vm, view, url, page).Completed()
    ensures var r := ChangePageTo(h, vm, view, url, page);
      (r.oldVm.Some? ==> HideExpectation(r.oldVm.value)) &&
      (ShowExpectation(r.newVm) <==> vm.designMode || h.dialogs.Some?)
  {
  }

  /** Why `ChangePage` failed (the exceptions that escape it). */
  datatype NavError =
    | NotImplemented                // the `IPageViewModel` and `Type` overloads
    | CannotFind(page: PageId)      // the resolver gave a null view-model or view
    | CreateFailed(e: CreateError)  // `CreateByPage` threw

  /** What `CreateByPage` produces: a view-model and a view, either possibly
      null (an overriding resolver may return nulls). */
  type Created = (Option<PageVm>, Option<ViewRef>)

  /** `PageHostViewModel<TPages>.ChangePage(TPages page)`, given what the
      resolver produced for `page`. The stored `_page` is passed on instead of
      `page`, so `Page` never changes. */
  function ChangePage(h: Host, page: PageId, created: Result<Created, CreateError>): (r: Result<Change, NavError>)
    ensures created.Failure? ==> r == Failure(CreateFailed(created.error))
    ensures created.Success? && (created.value.0.None? || created.value.1.None?) ==> r == Failure(CannotFind(page))
    ensures r.Success? ==> r.value.host.page == h.page
    ensures r.Success? ==> created.Success? && r.value.Completed() ==> r.value.host.view == created.value.1
    ensures created.Success? && created.value.0.Some? && created.value.1.Some? ==>
              var vm := created.value.0.value;
              && r.Success?
              && (r.value.Completed() <==> (h.viewModel.None? || h.viewModel.value.visible) && !vm.visible)
              && (!r.value.Completed() ==> r.value.host == h && r.value.oldVm == h.viewModel)
              && (r.value.Completed() ==>
                    && r.value.host.viewModel == Some(r.value.newVm) && r.value.host.view == created.value.1
                    && r.value.newVm == vm.(visible := true, host := Some(h.self), dialogs := h.dialogs)
                    && r.value.oldVm.Some? == h.viewModel.Some?)
  {
    match created
    case Failure(e) => Failure(CreateFailed(e))
    case Success((vm, view)) =>
      if vm.None? || view.None? then Failure(CannotFind(page))
      else Success(ChangePageTo(h, vm.value, view.value, None, h.page))
  }

  /** The argument of the two untyped `ChangePage` overloads. */
  datatype PageRequest = ByInstance(newPage: PageVm) | ByType(pvmType: TypeInfo)

  /** `ChangePage(IPageViewModel)` and `ChangePage(Type)`: not implemented;
      whatever is asked, they throw and the host is not touched. */
  function ChangePageUntyped(h: Host, request: PageRequest): (r: Result<Change, NavError>)
    ensures r == Failure(NotImplemented)
  {
    Failure(NotImplemented)
  }

  /** A type found by reflection: its simple `Name`, its `FullName`, and
      whether it implements `IPageViewModel` / `IPageView`. */
  datatype TypeInfo = TypeInfo(name: string, fullName: string, isPageViewModel: bool, isPageView: bool)

  /** The exceptions `CreateByPage` throws. */
  datatype CreateError =
    | NoViewModelType
    | NoViewType
    | NotAPageViewModel(vmType: TypeInfo)
    | NotAPageView(viewType: TypeInfo)
    | InvalidCast(vmType: TypeInfo)  // `(IPageViewModel) Activator.CreateInstance(vmType)`

  /** `PageHostViewModel<TPages>.CreateByPage(page)`: the view-model type is
      the `[ViewModel]` attribute's, else the assembly scan's, else it throws;
      likewise the view type; both must implement the page interfaces.
      Activation yields a fresh, hidden page and a new view for it. */
  function HostCreateByPage(
    vmAttr: Option<TypeInfo>, viewAttr: Option<TypeInfo>,
    vmScan: Option<TypeInfo>, viewScan: Option<TypeInfo>,
    designMode: bool, freshView: ViewRef): (r: Result<Created, CreateError>)
    ensures r.Success? <==>
              && (vmAttr.Some? || vmScan.Some?) && (viewAttr.Some? || viewScan.Some?)
              && vmAttr.GetOr(vmScan.GetOr(TypeInfo("", "", false, false))).isPageViewModel
              && viewAttr.GetOr(viewScan.GetOr(TypeInfo("", "", false, false))).isPageView
    ensures r.Success? ==> r.value == (Some(NewPage(designMode)), Some(freshView))
    ensures vmAttr.None? && vmScan.None? ==> r == Failure(NoViewModelType)
  {
    match (if vmAttr.Some? then vmAttr else vmScan)
    case None => Failure(NoViewModelType)
    case Some(vmType) =>
      match (if viewAttr.Some? then viewAttr else viewScan)
      case None => Failure(NoViewType)
      case Some(viewType) =>
        if !vmType.isPageViewModel then Failure(NotAPageViewModel(vmType))
        else if !viewType.isPageView then Failure(NotAPageView(viewType))
        else Success((Some(NewPage(designMode)), Some(freshView)))
  }

  /** The host after a sequence of `ChangePage(TPages)` calls, each given
      what the resolver produced; a call that throws leaves the host as it
      was, and the next call runs on it. The host object, its dialogs and its `Page` are never replaced. */
  function Navigate(h: Host, steps: seq<(PageId, Result<Created, CreateError>)>): (r: Host)
    ensures r.self == h.self && r.dialogs == h.dialogs && r.page == h.page
    ensures steps == [] ==> r == h
    decreases |steps|
  {
    if steps == [] then h
    else match ChangePage(h, steps[0].0, steps[0].1)
      case Failure(_) => Navigate(h, steps[1..])
      case Success(c) => Navigate(c.host, steps[1..])
  }

  /** A host that starts consistent stays consistent whatever the resolver
      produces, even pages an overriding `CreateByPage` returns already
      visible or reused: a change either completes, attaching and showing the
      new page, or leaves the host as it was. */
  lemma {:induction false} NavigationInvariant(h: Host, steps: seq<(PageId, Result<Created, CreateError>)>)
    requires HostConsistent(h)
    ensures HostConsistent(Navigate(h, steps))
    ensures Navigate(h, steps).viewModel.Some? ==> Navigate(h, steps).viewModel.value.visible
    decreases |steps|
  {
    if steps != [] {
      match ChangePage(h, steps[0].0, steps[0].1)
      case Failure(_) =>
        NavigationInvariant(h, steps[1..]);
      case Success(c) =>
        NavigationInvariant(c.host, steps[1..]);
    }
  }

  /** From a freshly constructed host, `Page` stays null whatever pages are
      navigated to. */
  lemma PageNeverUpdated(self: HostRef, dialogs: Option<DialogsRef>, steps: seq<(PageId, Result<Created, CreateError>)>)
    ensures Navigate(NewHost(self, dialogs), steps).page.None?
  {
  }

  /** `PageWindowViewModel<TPages>.ChangePage(page)`: a null view-model or
      view is only logged, and nothing changes (`None`); exceptions from
      `CreateByPage` escape. The change itself is the same `ChangePageTo`,
      again with the stored `_page`. */
  function WindowChangePage(h: Host, created: Result<Created, CreateError>): (r: Result<Option<Change>, CreateError>)
    ensures created.Failure? <==> r.Failure?
    ensures created.Failure? ==> r == Failure(created.error)
    ensures created.Success? && (created.value.0.None? || created.value.1.None?) ==> r == Success(None)
    ensures r.Success? && r.value.Some? ==> r.value.value.host.page == h.page
    ensures created.Success? && created.value.0.Some? && created.value.1.Some? ==>
              var vm := created.value.0.value;
              && r.Success? && r.value.Some?
              && (r.value.value.Completed() <==> (h.viewModel.None? || h.viewModel.value.visible) && !vm.visible)
              && (!r.value.value.Completed() ==> r.value.value.host == h && r.value.value.oldVm == h.viewModel)
              && (r.value.value.Completed() ==>
                    && r.value.value.host.viewModel == Some(r.value.value.newVm) && r.value.value.host.view == created.value.1
                    && r.value.value.newVm == vm.(visible := true, host := Some(h.self), dialogs := h.dialogs)
                    && r.value.value.oldVm.Some? == h.viewModel.Some?)
  {
    match created
    case Failure(e) => Failure(e)
    case Success((vm, view)) =>
      if vm.Some? && view.Some? then Success(Some(ChangePageTo(h, vm.value, view.value, None, h.page)))
      else Success(None)
  }

  /** `PageWindowViewModel<TPages>.CreateByPage(page)` as written: there is no
      assembly scan, and the interface checks are inverted. A type that does
      implement its page interface is rejected by the check; one that does
      not passes it and then fails the cast of the activated instance to
      `IPageViewModel`. Either way it throws, whatever the attributes. */
  function WindowCreateByPage(
    vmAttr: Option<TypeInfo>, viewAttr: Option<TypeInfo>,
    designMode: bool, freshView: ViewRef): (r: Result<Created, CreateError>)
    ensures r.Failure?
    ensures vmAttr.None? ==> r == Failure(NoViewModelType)
    ensures vmAttr.Some? && viewAttr.None? ==> r == Failure(NoViewType)
    ensures vmAttr.Some? && viewAttr.Some? && vmAttr.value.isPageViewModel ==> r == Failure(NotAPageViewModel(vmAttr.value))
    ensures vmAttr.Some? && viewAttr.Some? && !vmAttr.value.isPageViewModel ==>
              r == Failure(if viewAttr.value.isPageView then NotAPageView(viewAttr.value) else InvalidCast(vmAttr.value))
  {
    match vmAttr
    case None => Failure(NoViewModelType)
    case Some(vmType) =>
      match viewAttr
      case None => Failure(NoViewType)
      case Some(viewType) =>
        if vmType.isPageViewModel then Failure(NotAPageViewModel(vmType))
        else if viewType.isPageView then Failure(NotAPageView(viewType))
        else Failure(InvalidCast(vmType))
  }

  /** The window host can never change page: whatever the attributes,
      `CreateByPage` throws before `ChangePageTo` is reached, and for
      correctly attributed page types it is the inverted check that throws. */
  lemma WindowCreateByPageRejectsValidPages(vmAttr: Option<TypeInfo>, viewAttr: Option<TypeInfo>, designMode: bool, freshView: ViewRef, h: Host)
    ensures WindowChangePage(h, WindowCreateByPage(vmAttr, viewAttr, designMode, freshView)).Failure?
    ensures vmAttr.Some? && viewAttr.Some? && vmAttr.value.isPageViewModel && viewAttr.value.isPageView ==>
              WindowCreateByPage(vmAttr, viewAttr, designMode, freshView) == Failure(NotAPageViewModel(vmAttr.value))
  {
  }

  /** `PageWindowViewModel<TPages>.CreateByPage` with the interface checks the
      exception messages describe. */
  function WindowCreateByPageIntended(
    vmAttr: Option<TypeInfo>, viewAttr: Option<TypeInfo>,
    designMode: bool, freshView: ViewRef): (r: Result<Created, CreateError>)
    ensures r.Success? <==> vmAttr.Some? && viewAttr.Some? && vmAttr.value.isPageViewModel && viewAttr.value.isPageView
    ensures r.Success? ==> r.value == (Some(NewPage(designMode)), Some(freshView))
  {
    match vmAttr
    case None => Failure(NoViewModelType)
    case Some(vmType) =>
      match viewAttr
      case None => Failure(NoViewType)
      case Some(viewType) =>
        if !vmType.isPageViewModel then Failure(NotAPageViewModel(vmType))
        else if !viewType.isPageView then Failure(NotAPageView(viewType))
        else Success((Some(NewPage(designMode)), Some(freshView)))
  }

  /** The intended window `CreateByPage` agrees with the host's whenever both
      attributes are present, and with correctly attributed types the window
      host then changes page. */
  lemma WindowCreateByPageIntendedAgrees(
    vmType: TypeInfo, viewType: TypeInfo, vmScan: Option<TypeInfo>, viewScan: Option<TypeInfo>,
    designMode: bool, freshView: ViewRef, h: Host)
    ensures WindowCreateByPageIntended(Some(vmType), Some(viewType), designMode, freshView)
         == HostCreateByPage(Some(vmType), Some(viewType), vmScan, viewScan, designMode, freshView)
    ensures HostConsistent(h) && vmType.isPageViewModel && viewType.isPageView ==>
      var r := WindowChangePage(h, WindowCreateByPageIntended(Some(vmType), Some(viewType), designMode, freshView));
      r.Success? && r.value.Some? && r.value.value.Completed()
  {
  }

  /** `s.EndsWith(suffix)`, compared character by character: `s` is some
      text followed by `suffix`. */
  predicate EndsWith(s: string, suffix: string): (b: bool)
    ensures b <==> exists prefix :: s == prefix + suffix
  {
    if |suffix| <= |s| && s[|s| - |suffix|..] == suffix then
      assert s == s[..|s| - |suffix|] + suffix;
      true
    else
      assert forall prefix :: s != prefix + suffix;
      false
  }

  /** `Array.Find`: the first element satisfying the test, or null. */
  function FindFirst(types: seq<TypeInfo>, test: TypeInfo -> bool): (r: Option<TypeInfo>)
    ensures r.None? <==> forall i :: 0 <= i < |types| ==> !test(types[i])
    ensures r.Some? ==> exists i :: 0 <= i < |types| && types[i] == r.value && test(types[i])
                                  && forall j :: 0 <= j < i ==> !test(types[j])
    decreases |types|
  {
    if types == [] then None
    else if test(types[0]) then Some(types[0])
    else
      var rest := FindFirst(types[1..], test);
      assert forall i :: 1 <= i < |types| ==> types[i] == types[1..][i - 1];
      rest
  }

  /** When `types[i]` is the first element passing the test, `Array.Find`
      returns it. */
  lemma FindFirstAt(types: seq<TypeInfo>, test: TypeInfo -> bool, i: nat)
    requires i < |types| && test(types[i])
    requires forall j :: 0 <= j < i ==> !test(types[j])
    ensures FindFirst(types, test) == Some(types[i])
  {
    var r := FindFirst(types, test);
    var k :| 0 <= k < |types| && types[k] == r.value && test(types[k]) && forall j :: 0 <= j < k ==> !test(types[j]);
    assert k == i;
  }

  /** The type-name suffixes the host's assembly scan looks for. */
  const ViewModelSuffix: string := "PageVM"
  const ViewSuffix: string := "Page"

  /** The host's assembly scan as written (`ViewModelSuffix` for the
      view-model, `ViewSuffix` for the view): it tests the simple `Name`
      against `"." + page + suffix`. */
  function ScanByName(types: seq<TypeInfo>, page: PageId, suffix: string): (r: Option<TypeInfo>)
    ensures r.None? <==> forall i :: 0 <= i < |types| ==> !EndsWith(types[i].name, "." + page.name + suffix)
    ensures r.Some? ==> exists i :: 0 <= i < |types| && types[i] == r.value && EndsWith(r.value.name, "." + page.name + suffix)
                                  && forall j :: 0 <= j < i ==> !EndsWith(types[j].name, "." + page.name + suffix)
  {
    FindFirst(types, (t: TypeInfo) => EndsWith(t.name, "." + page.name + suffix))
  }

  /** A simple type name never contains a dot, so the scan as written never
      finds anything, and a page without `[ViewModel]` and `[View]`
      attributes always makes `CreateByPage` throw. */
  lemma ScanByNameNeverMatches(types: seq<TypeInfo>, page: PageId, suffix: string, designMode: bool, freshView: ViewRef)
    requires forall i :: 0 <= i < |types| ==> '.' !in types[i].name
    ensures ScanByName(types, page, suffix).None?
    ensures HostCreateByPage(None, None, ScanByName(types, page, ViewModelSuffix), ScanByName(types, page, ViewSuffix), designMode, freshView)
         == Failure(NoViewModelType)
  {
    forall sfx: string, i | 0 <= i < |types|
      ensures !EndsWith(types[i].name, "." + page.name + sfx)
    {
      NoDotNoDottedSuffix(types[i].name, "." + page.name + sfx);
    }
  }

  lemma NoDotNoDottedSuffix(s: string, suffix: string)
    requires '.' !in s
    requires |suffix| > 0 && suffix[0] == '.'
    ensures !EndsWith(s, suffix)
  {
    if |suffix| <= |s| {
      assert s[|s| - |suffix|] != '.';
      assert s[|s| - |suffix|..][0] != suffix[0];
    }
  }

  /** The scan as evidently intended: against the namespace-qualified
      `FullName`. */
  function ScanByFullName(types: seq<TypeInfo>, page: PageId, suffix: string): (r: Option<TypeInfo>)
    ensures r.None? <==> forall i :: 0 <= i < |types| ==> !EndsWith(types[i].fullName, "." + page.name + suffix)
    ensures r.Some? ==> exists i :: 0 <= i < |types| && types[i] == r.value && EndsWith(r.value.fullName, "." + page.name + suffix)
                                  && forall j :: 0 <= j < i ==> !EndsWith(types[j].fullName, "." + page.name + suffix)
  {
    FindFirst(types, (t: TypeInfo) => EndsWith(t.fullName, "." + page.name + suffix))
  }

  /** The first type named `<namespace>.<page>PageVM` and the first named
      `<namespace>.<page>Page` are what the intended scan finds; the rest of
      the assembly (the `TPages` enumeration itself, say) may be anything.
      When those two implement their page interfaces, `CreateByPage`
      succeeds without any attribute. */
  lemma ScanByFullNameFinds(types: seq<TypeInfo>, page: PageId, vmNs: string, viewNs: string, i: nat, j: nat,
                            designMode: bool, freshView: ViewRef)
    requires i < |types| && types[i].fullName == vmNs + "." + page.name + ViewModelSuffix
    requires forall k :: 0 <= k < i ==> !EndsWith(types[k].fullName, "." + page.name + ViewModelSuffix)
    requires j < |types| && types[j].fullName == viewNs + "." + page.name + ViewSuffix
    requires forall k :: 0 <= k < j ==> !EndsWith(types[k].fullName, "." + page.name + ViewSuffix)
    requires types[i].isPageViewModel && types[j].isPageView
    ensures ScanByFullName(types, page, ViewModelSuffix) == Some(types[i])
    ensures ScanByFullName(types, page, ViewSuffix) == Some(types[j])
    ensures HostCreateByPage(None, None, ScanByFullName(types, page, ViewModelSuffix), ScanByFullName(types, page, ViewSuffix), designMode, freshView)
         == Success((Some(NewPage(designMode)), Some(freshView)))
  {
    assert EndsWith(types[i].fullName, "." + page.name + ViewModelSuffix);
    assert EndsWith(types[j].fullName, "." + page.name + ViewSuffix);
    FindFirstAt(types, (t: TypeInfo) => EndsWith(t.fullName, "." + page.name + ViewModelSuffix), i);
    FindFirstAt(types, (t: TypeInfo) => EndsWith(t.fullName, "." + page.name + ViewSuffix), j);
  }
}

=== FILE: page_lifecycle.dfy ===
/** `PageViewModel`: a page's visibility flag, guarded by the `Before*` hooks
    (which throw on the wrong state) and toggled by the `After*` hooks.

    The Core assembly has two identical copies of the class (in
    `PageViewModel.cs` and in `ViewModel.cs`); both are this module. The
    `Debug.Assert`s of the `After*` hooks are not failures: they are the
    predicates `ShowExpectation` and `HideExpectation`. */
module PageLifecycle {
  import opened Wrappers

  /** Identity of a page host (`IPageHostViewModel`). */
  datatype HostRef = HostRef(id: nat)
  /** Identity of a dialogs service (`IDialogs`). */
  datatype DialogsRef = DialogsRef(id: nat)

  /** The state of one page view-model object: `IsVisible`, `Host`,
      `Dialogs` (null as `None`) and `IsInDesignMode`. */
  datatype PageVm = PageVm(visible: bool, host: Option<HostRef>, dialogs: Option<DialogsRef>, designMode: bool)

  /** The exceptions the guards throw. */
  datatype HookError = PageNotHidden | PageNotVisible

  /** A freshly constructed page (the parameterless constructor). */
  function NewPage(designMode: bool): (p: PageVm)
    ensures !p.visible && p.host.None? && p.dialogs.None? && p.designMode == designMode
  {
    PageVm(false, None, None, designMode)
  }

  /** `BeforeShow`: throws "Page not hidden" on a visible page; otherwise
      returns with the page unchanged. */
  function BeforeShow(p: PageVm): (r: Result<PageVm, HookError>)
    ensures r.Failure? <==> p.visible
    ensures r.Failure? ==> r.error == PageNotHidden
    ensures r.Success? ==> r.value == p
  {
    if p.visible then Failure(PageNotHidden) else Success(p)
  }

  /** `AfterShow`: the page becomes visible; nothing else changes. */
  function AfterShow(p: PageVm): (r: PageVm)
    ensures r.visible
    ensures r.host == p.host && r.dialogs == p.dialogs && r.designMode == p.designMode
  {
    p.(visible := true)
  }

  /** `BeforeHide`: throws "Page not visible" on a hidden page; otherwise
      returns with the page unchanged. */
  function BeforeHide(p: PageVm): (r: Result<PageVm, HookError>)
    ensures r.Failure? <==> !p.visible
    ensures r.Failure? ==> r.error == PageNotVisible
    ensures r.Success? ==> r.value == p
  {
    if !p.visible then Failure(PageNotVisible) else Success(p)
  }

  /** `AfterHide`: the page becomes hidden; nothing else changes. */
  function AfterHide(p: PageVm): (r: PageVm)
    ensures !r.visible
    ensures r.host == p.host && r.dialogs == p.dialogs && r.designMode == p.designMode
  {
    p.(visible := false)
  }

  /** What `AfterShow` asserts in a debug build: outside design mode the page
      is attached to a host and has a dialogs service. */
  predicate ShowExpectation(p: PageVm) {
    p.designMode || (p.host.Some? && p.dialogs.Some?)
  }

  /** What `AfterHide` asserts in a debug build: outside design mode the page
      has been detached from its host and its dialogs service. */
  predicate HideExpectation(p: PageVm) {
    p.designMode || (p.host.None? && p.dialogs.None?)
  }

  /** From hidden, `BeforeShow` then `AfterShow` makes the page visible, after
      which a second `BeforeShow` throws; `BeforeHide` then `AfterHide` brings
      it back to where it started. */
  lemma ShowThenHide(p: PageVm)
    requires !p.visible
    ensures BeforeShow(p).Success?
    ensures AfterShow(BeforeShow(p).value).visible
    ensures BeforeShow(AfterShow(BeforeShow(p).value)).Failure?
    ensures BeforeHide(AfterShow(p)).Success?
    ensures AfterHide(BeforeHide(AfterShow(p)).value) == p
  {
  }

  /** Exactly one of the two guards passes on any page, so the hooks can only
      alternate: show, hide, show, ... */
  lemma GuardsAreComplementary(p: PageVm)
    ensures BeforeShow(p).Success? <==> BeforeHide(p).Failure?
  {
  }
}

=== FILE: text.dfy ===
/** The two string operations the grid helpers rely on: `String.Split` on one
    separator character and `Int32.ToString()` of a non-negative number. */
module Text {
  import opened Wrappers

  /** `s.Split(sep)`: every piece between separators, empty pieces included,
      with no trimming. */
  function Split(s: string, sep: char): (r: seq<string>)
    ensures |r| >= 1
    ensures forall i :: 0 <= i < |r| ==> sep !in r[i]
    decreases |s|
  {
    if s == [] then [""]
    else
      var rest := Split(s[1..], sep);
      if s[0] == sep then [""] + rest
      else [[s[0]] + rest[0]] + rest[1..]
  }

  /** `String.Join(sep, parts)`: the reference against which `Split` is
      checked. */
  function Join(parts: seq<string>, sep: char): (r: string)
    requires |parts| >= 1
    ensures parts[0] <= r
    ensures |parts| > 1 ==> |parts[0]| < |r| && r[|parts[0]|] == sep
    ensures |parts| == 1 ==> r == parts[0]
    decreases |parts|
  {
    if |parts| == 1 then parts[0] else parts[0] + [sep] + Join(parts[1..], sep)
  }

  /** Splitting loses nothing: joining the pieces gives the text back. */
  lemma {:induction false} JoinSplit(s: string, sep: char)
    ensures Join(Split(s, sep), sep) == s
    decreases |s|
  {
    if s != [] {
      var rest := Split(s[1..], sep);
      JoinSplit(s[1..], sep);
      if s[0] == sep {
        assert Split(s, sep)[1..] == rest;
      } else {
        var r := Split(s, sep);
        assert r[0] == [s[0]] + rest[0];
        if |rest| == 1 {
          assert s == [s[0]] + s[1..];
        } else {
          assert r[1..] == rest[1..];
          assert Join(rest, sep) == rest[0] + [sep] + Join(rest[1..], sep);
          assert s == [s[0]] + s[1..];
        }
      }
    }
  }

  /** Text without a separator is one piece. */
  lemma {:induction false} SplitWithoutSeparator(a: string, t: string, sep: char)
    requires sep !in a
    ensures Split(a + t, sep) == [a + Split(t, sep)[0]] + Split(t, sep)[1..]
    decreases |a|
  {
    if a != [] {
      assert (a + t)[1..] == a[1..] + t;
      assert (a + t)[0] == a[0];
      SplitWithoutSeparator(a[1..], t, sep);
      assert [a[0]] + (a[1..] + Split(t, sep)[0]) == a + Split(t, sep)[0];
    } else {
      var r := Split(t, sep);
      assert a + t == t;
      assert a + r[0] == r[0];
      assert r == [r[0]] + r[1..];
    }
  }

  /** ... and the pieces of a join are exactly the parts joined, so `Split`
      is the inverse of `Join` on separator-free parts. */
  lemma {:induction false} SplitJoin(parts: seq<string>, sep: char)
    requires |parts| >= 1
    requires forall i :: 0 <= i < |parts| ==> sep !in parts[i]
    ensures Split(Join(parts, sep), sep) == parts
    decreases |parts|
  {
    if |parts| == 1 {
      SplitWithoutSeparator(parts[0], "", sep);
      assert parts[0] + "" == parts[0];
      assert Split("", sep) == [""];
      assert Join(parts, sep) == parts[0];
      assert parts == [parts[0]];
    } else {
      var tail := parts[1..];
      SplitJoin(tail, sep);
      var t := [sep] + Join(tail, sep);
      assert parts[0] + [sep] + Join(tail, sep) == parts[0] + t;
      SplitWithoutSeparator(parts[0], t, sep);
      assert t[0] == sep && t[1..] == Join(tail, sep);
      assert Split(t, sep) == [""] + Split(t[1..], sep);
      assert Split(t, sep) == [""] + tail;
      assert Split(t, sep)[0] == "" && Split(t, sep)[1..] == tail;
      assert parts[0] + "" == parts[0];
      assert Join(parts, sep) == parts[0] + t;
      assert parts == [parts[0]] + tail;
    }
  }

  predicate IsDigit(c: char) {
    '0' <= c <= '9'
  }

  function DigitChar(d: nat): (c: char)
    requires d < 10
    ensures IsDigit(c)
  {
    (('0' as int) + d) as char
  }

  function DigitValue(c: char): (d: nat)
    requires IsDigit(c)
    ensures d < 10
  {
    (c as int) - ('0' as int)
  }

  /** `i.ToString()` for `i >= 0`: decimal digits, most significant first,
      without sign, padding or leading zeros. */
  function NatToString(n: nat): (r: string)
    ensures |r| >= 1
    ensures forall i :: 0 <= i < |r| ==> IsDigit(r[i])
    ensures |r| > 1 ==> r[0] != '0'
    decreases n
  {
    if n < 10 then [DigitChar(n)] else NatToString(n / 10) + [DigitChar(n % 10)]
  }

  /** Decimal parsing of digit strings: the reference for `NatToString`. */
  function ParseNat(s: string): (r: Option<nat>)
    ensures r.Some? <==> |s| >= 1 && forall i :: 0 <= i < |s| ==> IsDigit(s[i])
    decreases |s|
  {
    if s == [] || !IsDigit(s[|s| - 1]) then None
    else if |s| == 1 then Some(DigitValue(s[0]))
    else match ParseNat(s[..|s| - 1])
      case None => None
      case Some(v) => Some(10 * v + DigitValue(s[|s| - 1]))
  }

  /** Parsing the printed number gives the number back. */
  lemma {:induction false} ParseNatToString(n: nat)
    ensures ParseNat(NatToString(n)) == Some(n)
    decreases n
  {
    if n >= 10 {
      var s := NatToString(n);
      ParseNatToString(n / 10);
      assert s[..|s| - 1] == NatToString(n / 10);
      assert DigitValue(s[|s| - 1]) == n % 10;
    }
  }

  /** Different numbers print differently, so a token names at most one index. */
  lemma NatToStringInjective(m: nat, n: nat)
    requires NatToString(m) == NatToString(n)
    ensures m == n
  {
    ParseNatToString(m);
    ParseNatToString(n);
  }
}

=== FILE: view_models.dfy ===
/** The view-model base classes: the compare-assign-notify step `SetProperty`
    and the constructors of `ViewModel<TModel>` and `DesignViewModel<TModel>`.

    The three copies of `ViewModel.SetProperty` (Core `ViewModels/ViewModel.cs`,
    Common `ViewModels/ViewModel.cs`, Common `Intf/Class1.cs`) are the same
    code and are this one function. C#'s `Equals(object, object)` is `==`. */
module ViewModels {
  import opened Wrappers
  import opened PageLifecycle

  /** The effect of `SetProperty(ref storage, value, propertyName)`: the
      returned flag, the storage afterwards, and the `PropertyChanged`
      notifications raised (a null property name as `None`). */
  datatype SetResult<T> = SetResult(changed: bool, storage: T, notified: seq<Option<string>>)

  function SetProperty<T(==)>(storage: T, value: T, propertyName: Option<string>): (r: SetResult<T>)
    ensures r.storage == value
    ensures r.changed <==> storage != value
    ensures |r.notified| <= 1
    ensures r.notified != [] <==> r.changed
    ensures r.changed ==> r.notified == [propertyName]
  {
    if storage == value then SetResult(false, storage, [])
    else SetResult(true, value, [propertyName])
  }

  /** An equal value: `false`, storage unchanged, no notification. */
  lemma SetPropertyEqualIsNoop<T>(storage: T, propertyName: Option<string>)
    ensures SetProperty(storage, storage, propertyName) == SetResult(false, storage, [])
  {
  }

  /** An unequal value: stored, announced once under `propertyName`, `true`. */
  lemma SetPropertyUnequalAssigns<T>(storage: T, value: T, propertyName: Option<string>)
    requires storage != value
    ensures SetProperty(storage, value, propertyName) == SetResult(true, value, [propertyName])
  {
  }

  /** Repeating a call with the same value changes nothing more: it returns
      `false` and raises nothing. */
  lemma SetPropertyIdempotent<T>(storage: T, value: T, propertyName: Option<string>)
    ensures var first := SetProperty(storage, value, propertyName);
      SetProperty(first.storage, value, propertyName) == SetResult(false, first.storage, [])
  {
  }

  /** The observable state of a `ViewModel<TModel>`: `Model` and `Dialogs`. */
  datatype ViewModelState<M> = ViewModelState(model: M, dialogs: Option<DialogsRef>)

  /** `ViewModel<TModel>(model)` and `ViewModel<TModel>(model, coordinator)`
      (and the `DesignViewModel<TModel>` constructors that forward to them). */
  function NewViewModel<M>(model: M, coordinator: Option<DialogsRef>): (r: ViewModelState<M>)
    ensures r.model == model && r.dialogs == coordinator
  {
    ViewModelState(model, coordinator)
  }

  /** The exception of the parameterless `DesignViewModel<TModel>` constructor. */
  datatype DesignError = OnlyForDesignMode

  /** `DesignViewModel<TModel>()`: in design mode the model is a fresh
      `new TModel()` (`newModel`); otherwise the constructor throws. */
  function NewDesignViewModel<M>(inDesignMode: bool, newModel: M): (r: Result<ViewModelState<M>, DesignError>)
    ensures r.Success? <==> inDesignMode
    ensures r.Success? ==> r.value.model == newModel && r.value.dialogs.None?
    ensures r.Failure? ==> r.error == OnlyForDesignMode
  {
    if inDesignMode then Success(NewViewModel(newModel, None)) else Failure(OnlyForDesignMode)
  }
}

=== FILE: window_placement.dfy ===
/** The window-geometry record that is persisted for a form, and the rewrite it
    undergoes before it is handed back to the operating system.

    The native `user32` calls are not modelled: reading a window's placement is
    a parameter (`current`), and applying one is the `Applied` outcome. The XML
    serializer is an uninterpreted pair of functions (`Codec`). */
module WindowPlacement {
  import opened Wrappers

  /** `FsPoint`: a point in screen coordinates. */
  datatype FsPoint = FsPoint(x: Int32, y: Int32)

  /** `FsRect`: a rectangle in screen coordinates. Nothing here requires
      `left <= right` or `top <= bottom`; the operating system is the judge. */
  datatype FsRect = FsRect(left: Int32, top: Int32, right: Int32, bottom: Int32)

  /** `WINDOWPLACEMENT`, field for field, in declaration order. */
  datatype Placement = Placement(
    length: Int32,
    flags: Int32,
    showCmd: Int32,
    minPosition: FsPoint,
    maxPosition: FsPoint,
    normalPosition: FsRect)

  /** `SW_SHOWNORMAL` */
  const ShowNormal: Int32 := 1
  /** `SW_SHOWMINIMIZED` */
  const ShowMinimized: Int32 := 2
  /** `SW_SHOWMAXIMIZED`, named only to state what is kept. */
  const ShowMaximized: Int32 := 3

  /** `Marshal.SizeOf(typeof(WINDOWPLACEMENT))`: three `Int32`s, two points
      of two `Int32`s and one rectangle of four, with sequential layout. */
  const PlacementSize: Int32 := 3 * 4 + 2 * (2 * 4) + 4 * 4

  /** The serializer, seen from outside: `encode` is what `GetPlacement`
      returns for a placement, `decode` yields `None` exactly where
      `XmlSerializer.Deserialize` throws `InvalidOperationException`. */
  datatype Codec = Codec(encode: Placement -> string, decode: string -> Option<Placement>)

  /** The codec gives `p` back from its own text. */
  ghost predicate LosslessOn(c: Codec, p: Placement) {
    c.decode(c.encode(p)) == Some(p)
  }

  /** What `SetPlacement` hands to the operating system is always of this shape. */
  predicate Normalized(p: Placement) {
    p.length == PlacementSize && p.flags == 0 && p.showCmd != ShowMinimized
  }

  /** The three position fields agree. */
  predicate SameGeometry(p: Placement, q: Placement) {
    p.minPosition == q.minPosition && p.maxPosition == q.maxPosition && p.normalPosition == q.normalPosition
  }

  /** The rewrite applied between parsing and `SetWindowPlacement`: the size
      field is forced, the reserved flags are cleared, and a minimized window
      is restored as a normal one. */
  function Normalize(p: Placement): (r: Placement)
    ensures Normalized(r)
    ensures SameGeometry(p, r)
    ensures p.showCmd == ShowMinimized ==> r.showCmd == ShowNormal
    ensures p.showCmd != ShowMinimized ==> r.showCmd == p.showCmd
    ensures Normalized(p) ==> r == p
  {
    p.(length := PlacementSize,
       flags := 0,
       showCmd := if p.showCmd == ShowMinimized then ShowNormal else p.showCmd)
  }

  /** The normalised placements are exactly the fixed points of `Normalize`;
      in particular normalising twice is normalising once. */
  lemma NormalizeIdempotent(p: Placement)
    ensures Normalize(Normalize(p)) == Normalize(p)
    ensures Normalize(p) == p <==> Normalized(p)
  {
  }

  /** The effect of one `SetPlacement` call. */
  datatype SetOutcome =
    | Skipped                        // rejected before parsing; nothing applied
    | Swallowed                      // the parser threw; caught, nothing applied
    | Escaped                        // an exception the catch clause does not cover
    | Applied(placement: Placement)  // `SetWindowPlacement` was called with this

  /** `String.IsNullOrEmpty`. */
  predicate IsNullOrEmpty(text: Option<string>) {
    text.None? || text.value == ""
  }

  /** `FsWindowPlacement.SetPlacement(handle, text)`, with the rejection test
      as a parameter: the Core copy uses the external `IsBad` extension, the
      Common copy uses `IsNullOrEmpty` (see `SetPlacementCommon`).

      Text that passes the test is encoded to bytes first; for null that
      throws `ArgumentNullException`, which the `catch
      (InvalidOperationException)` clause does not catch. */
  function SetPlacement(isBad: Option<string> -> bool, decode: string -> Option<Placement>, text: Option<string>): (r: SetOutcome)
    ensures isBad(text) ==> r == Skipped
    ensures r == Escaped <==> !isBad(text) && text.None?
    ensures r.Applied? <==> !isBad(text) && text.Some? && decode(text.value).Some?
    ensures r.Applied? ==> r.placement == Normalize(decode(text.value).value)
    ensures r.Applied? ==> Normalized(r.placement) && SameGeometry(decode(text.value).value, r.placement)
  {
    if isBad(text) then Skipped
    else if text.None? then Escaped
    else match decode(text.value)
      case None => Swallowed
      case Some(p) => Applied(Normalize(p))
  }

  /** The Common copy of `SetPlacement`: null or empty text is a no-op, and
      because null is rejected up front no exception ever escapes. */
  function SetPlacementCommon(decode: string -> Option<Placement>, text: Option<string>): (r: SetOutcome)
    ensures IsNullOrEmpty(text) ==> r == Skipped
    ensures r != Escaped
    ensures r == Swallowed <==> !IsNullOrEmpty(text) && decode(text.value).None?
    ensures r.Applied? <==> !IsNullOrEmpty(text) && decode(text.value).Some?
    ensures r.Applied? ==> r.placement == Normalize(decode(text.value).value)
  {
    SetPlacement(IsNullOrEmpty, decode, text)
  }

  /** With a rejection test that covers null, the Core copy never lets an
      exception escape either. */
  lemma NothingEscapesWhenNullIsBad(isBad: Option<string> -> bool, decode: string -> Option<Placement>, text: Option<string>)
    requires isBad(None)
    ensures SetPlacement(isBad, decode, text) != Escaped
  {
  }

  /** `FsWindowPlacement.GetPlacement(handle)`: serialize what the operating
      system reports for the window. */
  function GetPlacement(c: Codec, current: Placement): (r: string)
    ensures LosslessOn(c, current) ==> c.decode(r) == Some(current)
  {
    c.encode(current)
  }

  /** Text produced by `GetPlacement` and fed back to `SetPlacement` applies the
      normalised form of the original placement, because both sides use the
      same serializer. */
  lemma GetThenSetAppliesNormalized(isBad: Option<string> -> bool, c: Codec, p: Placement)
    requires LosslessOn(c, p)
    requires !isBad(Some(GetPlacement(c, p)))
    ensures SetPlacement(isBad, c.decode, Some(GetPlacement(c, p))) == Applied(Normalize(p))
    ensures SetPlacementCommon(c.decode, Some(GetPlacement(c, p))) == Applied(Normalize(p)) || GetPlacement(c, p) == ""
  {
  }

  /** A maximized window is restored maximized; a minimized one comes back in
      the normal state. */
  lemma ShowStateOnRestore(p: Placement)
    ensures p.showCmd == ShowMaximized ==> Normalize(p).showCmd == ShowMaximized
    ensures p.showCmd == ShowMinimized ==> Normalize(p).showCmd == ShowNormal
    ensures Normalize(p).showCmd == ShowNormal <==> p.showCmd == ShowNormal || p.showCmd == ShowMinimized
  {
  }
}

=== FILE: wrappers.dfy ===
/** Nullable references and thrown exceptions, as values, and the C# integer
    width. `Option` stands for a C# reference that may be null; `Result` for a
    call that either returns a value or throws. */
module Wrappers {

  /** A C# `int` (`System.Int32`). */
  type Int32 = x: int | -0x8000_0000 <= x < 0x8000_0000

  datatype Option<+T> = None | Some(value: T) {

    /** The value, or `default` for null (the C# `??` operator). */
    function GetOr(default: T): T {
      match this
      case Some(v) => v
      case None => default
    }
  }

  datatype Result<+T, +E> = Success(value: T) | Failure(error: E) {

    predicate IsFailure() {
      Failure?
    }
  }
}
